=== FILE: README.md ===
# Conformance-test harnesses, modelled in Dafny

The repository holds three harnesses. Each runs a parser binary once per
fixture file and compares what the parser printed with golden files:

- `main.go` discovers fixtures in seven fixed directories and skips every
  entry whose name contains `.outp`. It normalises fixture text, golden text
  and captured output the same way: one trailing newline is removed, then
  every tab. It sorts the cases by display name and runs each one under the
  fatal-crash policy: a non-zero exit fails, and the crash banner is put in
  front of the output. With `-exit-on-fail` it stops at the first failure
  with status 1. Otherwise it tallies passes against the total.
- `main.py` runs every case of every module under `cases/`, skipping the
  `.outp` and `.error` companions. It uses the transparent policy: the exit
  status is ignored and both streams must match their companions once all
  trailing newlines are stripped. Two global counters number the tests and
  count the passes; they decide the closing message and the exit status.
  One numbered test can also be run alone.
- `logans/harness.py` runs the parser on every regular file of `tests/` in
  name order. In standard mode it compares both streams exactly with the
  golden files in `tests/out/` and `tests/err/`. In syntax mode it only
  checks whether the parser reported `syntax error` when, and only when,
  the golden error text is `syntax error`. It prints a dot per test and a
  running count after every 25th test, then the sorted names of the failed
  tests.

The model covers the pure decision layer of all three. The file system is a
value: a map from each listable directory to its entries in listing order,
and a map from each readable file to its content. A path is a directory when
it is listable and a regular file when it is readable. Python's `isdir` and
`isfile` only ask whether the path exists with that type, so the model does
not separate an existing path from a usable one (see "Left out"). The binary
under test is a function from a fixture path to what it printed; for Go this
also records whether it exited cleanly. File contents and captured output
are text that is already decoded. The failures the model covers become the
`Err` case of a `Result`: a Go `panic` on a directory or file that cannot be
read, and a Python exception on a missing directory, a missing golden file
or a test number outside the list. Python's `OSError` on a module that
exists but cannot be listed, and its `IOError` on a companion that exists
but cannot be read, are not among them. Go's process exit becomes its own
outcome of the run. The exceptions that are not modelled are listed under
"Left out".

Modules:

- `Env` (`env.dfy`): `Result`, the file system, the captured streams, and
  Python's `os.path.join`.
- `Strings` (`strings.dfy`): substring search, character removal and
  replacement, the last path segment, and the code-point order that Go's
  `<` and Python's `sorted` use.
- `Sorting` (`sorting.dfy`): a sort by string key (a sorted permutation),
  the uniqueness of the sorted arrangement of strings, order-keeping
  filtering, and mapping over a sequence.
- `GoHarness` (`go_harness.dfy`), `PyHarness` (`py_harness.dfy`) and
  `LogansHarness` (`logans_harness.dfy`): one module per harness.

Three behaviours of the code worth knowing:

- Go's normalisation (main.go:139-140) is not idempotent. `"a\n\n"` becomes
  `"a\n"` and then `"a"`, because `StripEndNewline` (main.go:241-247) removes
  only one newline (`GoHarness.NormalizeNotIdempotent`).
- Go's `sort.Sort` (main.go:86) is not a stable sort, so cases with equal
  display names may run in either order.
- A full Go run exits with status 0 even when cases failed (main.go:107-115).
  Only the early exit at main.go:208-211 sets status 1.

## Model

| member | source | states |
|---|---|---|
| Env.Join | logans/harness.py:33 | The joined path starts with the directory and ends with the name. A '/' is inserted between them, at the directory's end, exactly when the directory is non-empty and does not already end in '/'. |
| Env.JoinInjective | main.py:179 | Different entries of one directory give different joined paths, so cases and listing entries correspond one to one. |
| Strings.ContainsIffOccurs | main.go:77 | The substring test used by the `.outp` filter holds exactly when the marker occurs at some position of the name. |
| Strings.RemoveChar | main.go:250 | The result has no occurrence of the character, every other character occurs as often as before, and a text without the character is unchanged. |
| Strings.RemoveCharAppend | main.go:250 | Removing a character from a concatenation removes it from each part, so the kept characters stay in order. |
| Strings.ReplaceChar | main.go:124 | Replacing '-' by ' ' keeps the length and changes exactly the hyphen positions. |
| Strings.LastSegment | main.go:122-123 | The last element of a split on '/' is a suffix with no '/', and the text either is that suffix or has a '/' just before it. |
| Strings.LastSegmentAfterSep | main.go:122-123 | For any directory, the last segment of `dir/name` is `name` when `name` has no '/'. |
| Strings.LexLeTotal | main.go:228 | Any two strings are ordered one way or the other by the code-point order. |
| Strings.LexLeAntisymmetric | main.go:228 | Two strings ordered each before the other are equal. |
| Strings.LexLeTransitive | main.go:228 | The code-point order is transitive. |
| Sorting.SortBy | main.go:86 | Sorting gives a permutation of the input that is non-decreasing in the key. |
| Sorting.SortedStringsUnique | logans/harness.py:32 | Two sorted sequences holding the same strings are equal, so `sorted` has exactly one possible result. |
| Sorting.SortSortedIsIdentity | logans/harness.py:98 | Sorting an already sorted list of names leaves it unchanged. |
| Sorting.Keep | logans/harness.py:32-34 | A filtered list holds each element that passes the filter as often as the input does, and no other element. |
| Sorting.KeepAppend | logans/harness.py:32-34 | Filtering a concatenation filters each part, so the kept elements stay in their input order. |
| Sorting.KeepSorted | logans/harness.py:32-34 | Filtering a sorted sequence leaves it sorted. |
| GoHarness.StripEndNewline | main.go:241-247 | The result is a prefix of the input. It is shorter exactly when the input ends in a newline, and then by that one newline only. |
| GoHarness.StripEndNewlineUndoesAppend | main.go:241-247 | Stripping undoes appending one newline. |
| GoHarness.StripTabs | main.go:249-251 | The result has no tab, every other character occurs as often as before, and tab-free text is unchanged. |
| GoHarness.StripTabsIdempotent | main.go:249-251 | Stripping tabs twice is the same as stripping them once. |
| GoHarness.Normalize | main.go:139-140 | Normalised text has no tab. It is the tab-free input less one final newline exactly when the input ends in a newline. |
| GoHarness.NormalizeIdempotentIff | main.go:139-140 | Normalising twice gives the same text exactly when the normalised text does not end in a newline. |
| GoHarness.NormalizeNotIdempotent | main.go:139-140 | `"a\n\n"` normalises to `"a\n"`, and that normalises again to `"a"`. |
| GoHarness.ToTitle | main.go:124 | Title-casing an ASCII character raises lower-case letters to upper case and leaves every other character unchanged. The result is never a lower-case letter, so title-casing it again changes nothing, and it is a word separator exactly when the input was. |
| GoHarness.Title | main.go:124 | Title-casing keeps the length. A character is title-cased exactly when it starts the text or follows a word separator, and every other character is kept as it is. |
| GoHarness.TitleAfter | main.go:124 | A character is title-cased exactly when the character before it is a word separator; the length is kept. |
| GoHarness.TitleKeepsNonLetters | main.go:124 | Title-casing neither creates nor removes spaces, hyphens or slashes. |
| GoHarness.TitleOfSpaced | main.go:124 | A segment with hyphens turned into spaces and then title-cased has no hyphen and no '/'. It has a space exactly where the segment had a hyphen or a space. |
| GoHarness.PrettyName | main.go:121-124 | A display name has one character per character of the last path segment and contains no '-' or '/'. Its spaces are exactly the segment's hyphens and spaces. Every other character is the segment's, title-cased exactly when it starts the segment or follows a separator. |
| GoHarness.EntryNameGivesDisplayName | main.go:121-124 | A fixture path formed as main.go:80 forms it, a directory ending in `/` followed by entry `e`, gets the display name of `e` alone, with hyphens turned into spaces and then title-cased. The directory plays no part. |
| GoHarness.CreateTest | main.go:119-156 | An unreadable fixture is fatal. Otherwise the case carries its path, its display name and its normalised content. Its expected output is the normalised `.outp` text, or empty when that file is missing. It is not yet run. |
| GoHarness.FixturePaths | main.go:76-82 | Discovery yields no more fixture paths than listing entries. |
| GoHarness.FixturePathsMembers | main.go:76-82 | Every fixture path is the directory followed by a listed entry without `.outp`, and every such entry gives one. |
| GoHarness.FixturePathsCount | main.go:76-82 | An entry without `.outp` gives as many fixture paths as it has occurrences in the listing; an entry with `.outp` gives none. |
| GoHarness.CreatedPointwise | main.go:80-81 | Each discovered case is the case `CreateTest` builds for its path. |
| GoHarness.ReadDir | main.go:72 | Reading a directory gives its entries rearranged into name order. |
| GoHarness.DiscoverEntries | main.go:76-82 | One directory's discovery succeeds exactly when every fixture in it is readable. It then yields one built case per fixture path, in the order the directory was read. |
| GoHarness.DiscoverableReadable | main.go:71-83 | When discovery succeeds, every fixture path of every directory is readable. |
| GoHarness.Discover | main.go:71-83 | Discovery succeeds exactly when every directory and every fixture in it can be read. It then yields one built case per fixture path, directory by directory. |
| GoHarness.RunTest | main.go:160-179 | A non-zero exit fails. It records the crash banner followed by the normalised output, or the banner less its final newline when nothing was printed. A clean exit records the normalised output and passes exactly when that equals the expected output. Nothing fixed at discovery changes. |
| GoHarness.NormalizeKeepsTabFreePrefix | main.go:172 | Normalising a tab-free prefix followed by any text keeps the prefix, less at most its last character, at the front. |
| GoHarness.CrashBannerStaysInFront | main.go:168-173 | After normalisation, a crashed case's output still begins with the first banner line and with the whole banner less its final newline. |
| GoHarness.NormalizeAfterTabFree | main.go:172 | Normalising a tab-free prefix followed by non-empty text gives the prefix followed by the normalised text. |
| GoHarness.CrashOutputFollowsBanner | main.go:168-172 | The normalised crash text is the banner followed by the normalised output. When the binary printed nothing it is the banner less its final newline. |
| GoHarness.CleanMatchPasses | main.go:168-178 | Output that normalises to the golden text passes on a clean exit and fails on a non-zero exit. |
| GoHarness.JudgeKeepsNames | main.go:160-179 | Running a case never changes its display name. |
| GoHarness.FirstFailure | main.go:208-211 | Every case before the index passed, and the case at the index, if any, failed. |
| GoHarness.ExitCode | main.go:208-211 | The process exits with status 1 exactly after an early exit, and with 0 after a completed run, however many cases failed. |
| GoHarness.RunAll | main.go:89-92 | The cases that ran are a prefix of the cases, each judged once. A run without early exit runs them all. An early exit ends at the first failing case, after only passing ones. |
| GoHarness.EarlyExitIffSomeCaseFails | main.go:208-211 | With early exit, the run stops with exit status 1 exactly when some case fails. |
| GoHarness.EarlyExitRunsPrefix | main.go:89-92 | The cases an early-exit run ran are the first cases of a full run, with the same results. |
| GoHarness.CountPassed | main.go:100-103 | The pass count is at most the number of cases, and equals it exactly when every case passed. |
| GoHarness.CountPassedAppend | main.go:100-103 | The passes of two lists of cases add up. |
| GoHarness.Tally | main.go:97-103 | The loop counts the passed cases and the total, and the counts are equal exactly when every case passed. |
| GoHarness.Summarize | main.go:97-115 | The congratulations banner shows exactly when every case passed. The passed count is at most the total, which is the number of cases. |
| GoHarness.Harness | main.go:71-92 | The harness fails only when discovery of its seven directories does. It runs the discovered cases sorted by display name, and reports them in non-decreasing display-name order. A completed run ran one case per fixture, and a run without early exit always completes. |
| GoHarness.RunKeepsOrder | main.go:227-229 | Running cases sorted by display name reports them in the same order, because running keeps names. |
| PyHarness.StripEndNl | main.py:26-29 | The result is a prefix of the input that does not end in a newline, and only newlines were removed. |
| PyHarness.StripEndNlIdempotent | main.py:26-29 | Stripping twice is the same as stripping once. |
| PyHarness.StripEndNlIgnoresNewline | main.py:26-29 | An extra trailing newline never changes the stripped text. |
| PyHarness.StripEndNlEmptyIff | main.py:26-29 | Stripping leaves nothing exactly when the text is all newlines. |
| PyHarness.ModuleCases | main.py:179 | A module has no more cases than listing entries, and every case is a regular file. |
| PyHarness.ModuleCasesAppend | main.py:179 | The cases of two listings one after the other are the cases of the first, then those of the second, so cases keep the listing order. |
| PyHarness.ModuleCasesCount | main.py:179 | A qualifying entry gives its case path as often as the listing holds the entry, and any other entry gives none. |
| PyHarness.ModuleCasesMembers | main.py:179 | The cases are exactly the joined paths of the regular-file entries whose names contain neither `.outp` nor `.error`. |
| PyHarness.SubDirs | main.py:204 | The modules found are exactly the joined paths of the entries that are directories. |
| PyHarness.SubDirsAppend | main.py:204 | The directories of two listings one after the other are those of the first, then those of the second, so modules keep the listing order. |
| PyHarness.SubDirsCount | main.py:204 | An entry that is a directory gives its module path as often as the listing holds the entry, and any other entry gives none. |
| PyHarness.Modules | main.py:204 | Listing the modules fails exactly when `cases` cannot be listed. Otherwise each entry of `cases` that is a directory gives its joined path as often as it is listed, and nothing else is a module. |
| PyHarness.AllCases | main.py:216-219 | The test list is the cases of each module, module after module, and every test is a regular file. |
| PyHarness.Companion | main.py:151-162 | The expected text of a stream is its stripped companion file, or empty when there is none. Either way it never ends in a newline. |
| PyHarness.RunTest | main.py:145-172 | Running a test advances the test number by one. It passes exactly when both stripped streams equal their companions, and the pass count goes up exactly when it passes. A case without companions passes exactly when it prints nothing but newlines. Extra trailing newlines on either stream never change the verdict. |
| PyHarness.CountMatchingAppend | main.py:205-206 | The passes of two lists of cases run one after the other add up. |
| PyHarness.CountMatchingAll | main.py:248-249 | The pass count equals the number of cases exactly when every case passes. |
| PyHarness.NumberedStep | main.py:182-185 | Running the next case adds its number to the failure list exactly when it fails. |
| PyHarness.ModuleStep | main.py:180-185 | One more case advances the counters by one test, counts a pass or numbers a failure, and keeps the failure numbers increasing. |
| PyHarness.RunModule | main.py:175-185 | A module counts its cases and their passes, and `passedIn <= totalIn`. The failure list holds the numbers of exactly the failing cases, in strictly increasing order, and has `totalIn - passedIn` entries. |
| PyHarness.ClosingAsWritten | main.py:207-211 | A failure summary as written reports the passes, the total as the last test number plus one, and failures that make up the rest of the total. |
| PyHarness.ClosingAsWrittenMisreports | main.py:207-211 | The closing message as written claims everything passed exactly when one test failed: with no failures it prints a summary reporting 0 failed. |
| PyHarness.ClosingIsAccurate | main.py:248-249 | With the exit-status comparison, the closing message says everything passed, and the status is 0, exactly when all tests passed. Otherwise it reports the failures out of the total. |
| PyHarness.Closing | main.py:248-249 | A corrected failure summary reports the passes, the number of tests run, and failures that make up the rest. |
| PyHarness.ExitCode | main.py:248-249 | The exit status is 0 or 1. It is 0 exactly when the corrected closing message says everything passed. |
| PyHarness.FailedExactlyAppend | main.py:205-206 | Appending one module's failures, numbered after the earlier tests, keeps the failure list exact. |
| PyHarness.RunModules | main.py:203-206 | After all modules, the counters hold the last test number and the number of passes. The failure numbers are the positions of exactly the failing tests, in the order `loadAllTests` lists them. |
| PyHarness.RunTests | main.py:203-211 | A full run fails exactly when `cases` cannot be listed. It counts every listed test and records exactly the failing ones. The message it prints claims that everything passed exactly when the passes number one less than the tests (see Findings). The corrected message, and the exit status 1, report failure exactly when some test fails. |
| PyHarness.RunSingle | main.py:239-249 | A single run needs `cases`. An index into the test list, or a negative index counting from its end, runs that test: the run passes exactly when the test matches and exits with status 1 exactly when it does not pass. Any other index raises. |
| LogansHarness.GetFilesOnly | logans/harness.py:31-34 | Enumeration fails exactly when the directory cannot be listed. Otherwise it yields the regular files, each as often as listed, in sorted order. |
| LogansHarness.KeepHoldsTheFiles | logans/harness.py:32-34 | Keeping the regular files of a rearranged listing keeps exactly the listed regular files. |
| LogansHarness.GetFilesOnlyIsTheSortedFiles | logans/harness.py:31-34 | The enumeration is the only sorted sequence holding the directory's regular files. |
| LogansHarness.Passes | logans/harness.py:65-87 | Standard mode passes exactly when both streams equal the golden texts. Syntax mode passes exactly when the parser reported `syntax error` if and only if the golden error is `syntax error`. |
| LogansHarness.StandardPassImpliesSyntaxPass | logans/harness.py:65-87 | A test that passes in standard mode also passes in syntax mode. |
| LogansHarness.SyntaxVerdictIgnoresStdout | logans/harness.py:66-80 | Syntax mode depends only on the two error texts. |
| LogansHarness.Verdict | logans/harness.py:53-87 | One test has a verdict exactly when both golden files open, and the verdict is `Passes` on them. A missing golden output is reported before a missing golden error. |
| LogansHarness.Verdicts | logans/harness.py:50-87 | The verdicts are those of the tests, in run order. |
| LogansHarness.ProgressShowsEveryVerdict | logans/harness.py:70-87 | The dots printed show every verdict, in run order. |
| LogansHarness.Progress | logans/harness.py:70-90 | The progress output has one mark per test plus one count per 25 tests. |
| LogansHarness.ProgressCountsEvery25 | logans/harness.py:89-90 | The running count k is printed exactly for the multiples of 25 up to the number of tests. |
| LogansHarness.ProgressCountFollowsItsTest | logans/harness.py:89-90 | The running count k is printed right after the k-th test's dot: the progress output of the first k tests ends with `Count(k)` and begins the output of the whole run. |
| LogansHarness.Failing | logans/harness.py:73-87 | There are never more failing tests than tests. |
| LogansHarness.FailingIsKept | logans/harness.py:73-87 | The incorrect list is the tests that did not pass, in run order. |
| LogansHarness.FilesStep | logans/harness.py:50-90 | One more test with golden files appends its name to the incorrect list exactly when it fails. It appends its dot to the progress output, and after every 25th test the count. |
| LogansHarness.RunFiles | logans/harness.py:50-90 | The loop ends normally exactly when every test has both golden files; otherwise it crashes at the first test without them. At the end it has counted every test, listed exactly the failing tests in order, and printed the progress output for their verdicts. |
| LogansHarness.PassedOnCommandLine | logans/harness.py:41-87 | A test passes under the mode the command line selects exactly when both golden files exist and, with the single argument `syntax`, the parser reports a syntax error exactly when the golden error is one, or otherwise both streams equal their golden texts. |
| LogansHarness.RunSuite | logans/harness.py:36-101 | The run ends normally exactly when the directory lists and every test has its golden files; a missing golden output is reported before a missing golden error. It counts the enumerated files and lists the failing ones, at most one per test. It prints "All tests passed." exactly when every test passed by the direct reading of the command line and the golden files, and otherwise the count and names of the failures. |
| LogansHarness.FailingInNameOrder | logans/harness.py:96-99 | The failed names are collected in sorted order, so sorting them before printing changes nothing. |
| LogansHarness.ClosingFor | logans/harness.py:96-101 | The report says all tests passed exactly when none failed. Otherwise it gives their number and their names, each as often as it failed, in sorted order. |
| LogansHarness.FailingIffSomeFails | logans/harness.py:96-101 | The incorrect list is empty exactly when every test passed. |

## Left out

- Processes: spawning the binary, `make`, and waiting for exit are not modelled. What the binary printed, and for Go whether it exited cleanly, is a function of the fixture path passed in.
- Reading directories and files: the file system is passed in as a snapshot of listings and contents. Go's `ioutil.ReadDir` sorts a listing by name (`GoHarness.ReadDir`). Python's `os.listdir` order is whatever the snapshot gives.
- Timing: the per-test time, the average time and the elapsed time are left out. They come from the clock and are floating point.
- The MD5 `Id` of a Go test case is left out. It is only a display label.
- Terminal output: colours, `tabwriter`, the expected/actual/test-case block, `printSplit`/`printOutErr`, `clearLine` and the terminal-size query are left out. The Python harness's per-module progress lines, and its `.title()` headers, go with them.
- Command-line parsing is left out: Go's flags and Python's help output. Only logans' syntax-mode switch is modelled. main.py's two modes are modelled as separate members, PyHarness.RunTests and PyHarness.RunSingle. The dispatch on the argument count at main.py:232-249 is left out, including the help text and exit status 0 for `-h`, `--help` or any other argument count.
- Output printed before a crash is left out. A `panic` or an uncaught exception becomes an `Err` result, and what was printed until then is not modelled.
- PyHarness.StripEndNl: strips any number of trailing newlines. main.py:26-29 recurses once per newline, so text ending in about a thousand newlines exceeds Python's default recursion limit and raises. That exception is not modelled.
- LogansHarness.RunFiles: the parser's output is already text. logans/harness.py:58-59 decodes it as UTF-8 and raises on invalid bytes. That crash is not modelled.
- LogansHarness.Verdict: golden contents are the text a text-mode `open` returns (logans/harness.py:27), after Python's newline translation has turned "\r\n" into "\n". The parser's output is not translated. The translation itself is not modelled, so a golden file's content here is the translated text.
- GoHarness.IsSeparator: only ASCII follows Go's `strings.Title`; every character beyond ASCII counts as a letter, where Go looks at Unicode categories.
- GoHarness.ToTitle: only ASCII letters are title-cased; Unicode title-case mapping is not modelled.
- GoHarness.Harness: among cases with equal display names, the model's insertion sort puts each case before the later-discovered ones. Go's `sort.Sort` is not stable and may order such cases differently. The contract fixes the result to the model's sort, so it promises this tie order, which Go does not.
- PyHarness.IsCase: a case is an entry that is a readable file. main.py:179 and 219 use `isfile`, which also holds for a regular file that exists but cannot be read. Such a file is a case in Python and not in the model.
- PyHarness.Companion: a companion is read when it is a readable file. main.py:156-157 and 160-161 test `isfile` and then `open`, which raises `IOError` on a companion that exists but cannot be read. That exception is not modelled; the model treats such a companion as missing.
- PyHarness.SubDirs: a module is an entry that is a listable directory. main.py:204 tests `isdir`, and main.py:179 then raises `OSError` for a module that exists but cannot be listed. The model skips such a module instead, so PyHarness.RunTests fails exactly when `cases` cannot be listed only under this reading.
- LogansHarness.GetFilesOnly: a test is an entry that is a readable file. logans/harness.py:33 uses `os.path.isfile`, which also holds for a regular file that exists but cannot be read. Such a file is a test in Python and not in the model.
- Env.Join: models `os.path.join` only for names taken from a directory listing. Such a name never starts with '/', so the branch for an absolute second argument is left out.
- PyHarness.RunSingle: models Python's negative indices into the test list, and an index outside the list as an uncaught exception. A non-numeric index is not modelled.

## Findings

| source | as written | input that shows it | evidently intended | confidence | as-written member | corrected member |
|---|---|---|---|---|---|---|
| main.py:207 | The closing message compares `testNo` with `totalPassed`. `testNo` is the number of the last test, one less than the number of tests run. | Three tests, all passing: `testNo` is 2 and `totalPassed` is 3, so it prints a failure summary with 0 failed. Three tests, one failing: both are 2, so it prints "You pass everything I can throw at it." | Compare `totalPassed` with `testNo + 1`, as the exit-status test at main.py:248 does. | not executed | PyHarness.ClosingAsWrittenMisreports | PyHarness.ClosingIsAccurate |

=== FILE: env.dfy ===
/** The world a harness sees: the files it reads, the directories it lists, and
    what the binary under test printed. Every harness takes these as values, so
    that each decision it makes is a pure function of them. */
module Env {

  /** Success or a fatal error that ends the run (a Go `panic`, a Python
      exception that nobody catches). */
  datatype Result<+T, +E> = Ok(value: T) | Err(error: E) {

    predicate IsFailure() {
      Err?
    }

    function PropagateFailure<U>(): Result<U, E>
      requires Err?
    {
      Err(error)
    }

    function Extract(): T
      requires Ok?
    {
      value
    }
  }

  /** A snapshot of the file system: for every directory that can be listed,
      its entry names in listing order; for every regular file that can be
      read, its content. A path in neither map cannot be listed or read. */
  datatype FileSystem = FileSystem(dirs: map<string, seq<string>>, files: map<string, string>) {

    predicate IsFile(path: string) {
      path in files
    }

    predicate IsDir(path: string) {
      path in dirs
    }
  }

  /** What a child process wrote to its standard output and standard error. */
  datatype Streams = Streams(stdout: string, stderr: string)

  /** Python's `os.path.join(dir, name)` for a name taken from a directory
      listing, which never contains '/'. */
  function Join(dir: string, name: string): (p: string)
    ensures |dir| + |name| <= |p| <= |dir| + |name| + 1
    ensures p[..|dir|] == dir && p[|p| - |name|..] == name
    ensures |p| == |dir| + |name| + 1 <==> |dir| > 0 && dir[|dir| - 1] != '/'
    ensures |p| == |dir| + |name| + 1 ==> p[|dir|] == '/'
  {
    if |dir| == 0 || dir[|dir| - 1] == '/' then dir + name else dir + "/" + name
  }

  /** Two names joined to the same directory give the same path only when the
      names are equal, so listing entries and joined paths correspond one to one. */
  lemma JoinInjective(dir: string, a: string, b: string)
    requires Join(dir, a) == Join(dir, b)
    ensures a == b
  {
    var pa, pb := Join(dir, a), Join(dir, b);
    assert |a| == |b|;
    assert a == pa[|pa| - |a|..];
  }
}

=== FILE: go_harness.dfy ===
/** The Go harness (main.go): it discovers fixtures in a fixed list of
    directories, normalises their text, sorts them by display name, runs the
    binary under test once per fixture under the fatal-crash policy (a
    non-zero exit always fails), optionally stops at the first failure, and
    tallies the results. */
module GoHarness {
  import opened Env
  import opened Strings
  import opened Sorting

  /** The fixture directories main.go scans, in scanning order. */
  const TestDirs: seq<string> := [
    "testfiles/core/", "testfiles/variables/", "testfiles/expressions/", "testfiles/objects/",
    "testfiles/arrays/", "testfiles/booleans/", "testfiles/conditionals/"
  ]

  /** Marker in a file name that makes the file a golden output, not a fixture. */
  const OutpMarker: string := ".outp"

  /** Text put in front of the captured output of a binary that exited with a
      non-zero status. */
  const CrashBanner: string := CrashLine + CrashDetail

  /** The three lines of `CrashBanner`, each with its newline. The longer two
      are written as pieces that join into the source's literals, so that the
      absence of tabs below is checked piece by piece. */
  const CrashLine: string := "Your parser returned a non-zero exit code\n"
  const CrashLine2: string := "This generally " + "means something " + "very bad, like " + "a segfault, happened\n"
  const CrashLine3: string := "The output is below\n" + "--------------------" + "--------------------\n"
  const CrashDetail: string := CrashLine2 + CrashLine3

  lemma CrashLineHasNoTab()
    ensures '\t' !in CrashLine
  {
  }

  lemma CrashLine2HasNoTab()
    ensures '\t' !in CrashLine2
  {
    assert '\t' !in "This generally ";
    assert '\t' !in "means something ";
    assert '\t' !in "very bad, like ";
    assert '\t' !in "a segfault, happened\n";
  }

  lemma CrashLine3HasNoTab()
    ensures '\t' !in CrashLine3
  {
    assert '\t' !in "The output is below\n";
    assert '\t' !in "--------------------";
    assert '\t' !in "--------------------\n";
  }

  /** The banner holds no tab, so normalisation leaves it intact. */
  lemma CrashBannerHasNoTab()
    ensures '\t' !in CrashLine && '\t' !in CrashDetail
  {
    CrashLineHasNoTab();
    CrashLine2HasNoTab();
    CrashLine3HasNoTab();
  }

  /** One fixture. `fileName`, `prettyName`, `content` and `expectedOutput` are
      fixed when it is discovered; `actualOutput` and `passed` are filled in
      when it is run (the empty string and false until then). */
  datatype TestCase = TestCase(
    fileName: string,
    prettyName: string,
    content: string,
    expectedOutput: string,
    actualOutput: string,
    passed: bool)

  /** What running the binary on one fixture gave: whether it exited with
      status zero, and its standard output and standard error combined. */
  datatype Outcome = Outcome(exitOk: bool, output: string)

  /** The conditions under which main.go panics. */
  datatype Fatal = UnreadableDirectory(path: string) | UnreadableFile(path: string)

  // ---------------------------------------------------------------------------
  // Normalisation
  // ---------------------------------------------------------------------------

  predicate EndsWithNewline(s: string) {
    |s| > 0 && s[|s| - 1] == '\n'
  }

  /** Removes one trailing newline, if there is one. */
  function StripEndNewline(s: string): (r: string)
    ensures r <= s
    ensures s == r || s == r + "\n"
    ensures |r| < |s| <==> EndsWithNewline(s)
  {
    if EndsWithNewline(s) then s[..|s| - 1] else s
  }

  /** Stripping undoes appending a newline: only the last newline goes. */
  lemma StripEndNewlineUndoesAppend(s: string)
    ensures StripEndNewline(s + "\n") == s
  {
    assert (s + "\n")[..|s|] == s;
  }

  /** Removes every tab character; the other characters keep their order. */
  function StripTabs(s: string): (r: string)
    ensures '\t' !in r
    ensures forall x :: x != '\t' ==> multiset(r)[x] == multiset(s)[x]
    ensures '\t' !in s ==> r == s
  {
    RemoveChar(s, '\t')
  }

  /** Stripping tabs twice is stripping them once. */
  lemma StripTabsIdempotent(s: string)
    ensures StripTabs(StripTabs(s)) == StripTabs(s)
  {
  }

  /** The normalisation main.go applies to fixture text, golden text and
      captured output alike: one trailing newline off, then all tabs out. The
      result is the tab-free text less at most one final newline, which goes
      exactly when the original ends with a newline. */
  function Normalize(s: string): (r: string)
    ensures '\t' !in r
    ensures EndsWithNewline(s) ==> StripTabs(s) == r + "\n"
    ensures !EndsWithNewline(s) ==> StripTabs(s) == r
  {
    var body := StripEndNewline(s);
    if EndsWithNewline(s) then
      RemoveCharAppend(body, "\n", '\t');
      StripTabs(body)
    else
      StripTabs(body)
  }

  /** Normalising normalised text changes it exactly when the text still ends
      with a newline: Go's normalisation is idempotent only on such inputs. */
  lemma NormalizeIdempotentIff(s: string)
    ensures Normalize(Normalize(s)) == Normalize(s) <==> !EndsWithNewline(Normalize(s))
  {
  }

  /** "a\n\n" normalises to "a\n", which normalises again to "a". */
  lemma NormalizeNotIdempotent()
    ensures Normalize("a\n\n") == "a\n"
    ensures Normalize(Normalize("a\n\n")) == "a"
  {
    assert StripEndNewline("a\n\n") == "a\n";
    assert StripEndNewline("a\n") == "a";
  }

  // ---------------------------------------------------------------------------
  // Display names
  // ---------------------------------------------------------------------------

  /** Go's `isSeparator` for ASCII: anything but letters, digits and '_'.
      Characters beyond ASCII count as letters here. */
  predicate IsSeparator(c: char) {
    c as int <= 0x7F && !('0' <= c <= '9' || 'a' <= c <= 'z' || 'A' <= c <= 'Z' || c == '_')
  }

  /** Title case of one ASCII character: lower-case letters become upper case. */
  function ToTitle(c: char): (u: char)
    ensures 'a' <= c <= 'z' ==> 'A' <= u <= 'Z' && u as int == c as int - 32
    ensures !('a' <= c <= 'z') ==> u == c
    ensures IsSeparator(u) == IsSeparator(c)
    ensures !('a' <= u <= 'z')
  {
    if 'a' <= c <= 'z' then (c as int - 32) as char else c
  }

  /** Go's `strings.Title` continuing after the character `prev`: a character
      is title-cased exactly when the character before it is a separator. */
  function TitleAfter(prev: char, s: string): (r: string)
    ensures |r| == |s|
    ensures forall i :: 0 <= i < |s| ==>
      r[i] == (if IsSeparator(if i == 0 then prev else s[i - 1]) then ToTitle(s[i]) else s[i])
    decreases |s|
  {
    if |s| == 0 then []
    else [if IsSeparator(prev) then ToTitle(s[0]) else s[0]] + TitleAfter(s[0], s[1..])
  }

  /** Go's `strings.Title`: the start of the text counts as following a space,
      so a character is title-cased exactly when it starts the text or follows
      a separator. */
  function Title(s: string): (r: string)
    ensures |r| == |s|
    ensures forall i :: 0 <= i < |s| ==>
      r[i] == (if i == 0 || IsSeparator(s[i - 1]) then ToTitle(s[i]) else s[i])
  {
    TitleAfter(' ', s)
  }

  /** Title-casing one character changes only lower-case letters, so it
      keeps spaces, hyphens and slashes and makes none. */
  lemma TitleKeepsNonLetters(before: char, c: char)
    ensures var t := if IsSeparator(before) then ToTitle(c) else c;
      && (t == ' ' <==> c == ' ') && (t == '-' <==> c == '-') && (t == '/' <==> c == '/')
  {
  }

  /** The display name of a fixture: the last '/'-separated segment of its
      path, hyphens turned into spaces, words title-cased. It has one character
      per character of the segment, no '-' and no '/', and its spaces are
      exactly where the segment had a hyphen or a space. Every other character
      is the segment's, upper-cased when it starts a word. */
  function PrettyName(fileName: string): (r: string)
    ensures |r| == |LastSegment(fileName, '/')|
    ensures '-' !in r && '/' !in r
    ensures forall i :: 0 <= i < |r| ==>
      (r[i] == ' ' <==> LastSegment(fileName, '/')[i] == '-' || LastSegment(fileName, '/')[i] == ' ')
    ensures var seg := LastSegment(fileName, '/');
      forall i :: 0 <= i < |r| && seg[i] != '-' ==>
        r[i] == (if i == 0 || IsSeparator(seg[i - 1]) then ToTitle(seg[i]) else seg[i])
  {
    var seg := LastSegment(fileName, '/');
    TitleOfSpaced(seg);
    Title(ReplaceChar(seg, '-', ' '))
  }

  /** A fixture found by listing a directory whose path ends in '/' gets its
      display name from its entry name alone: the directory does not show. */
  lemma EntryNameGivesDisplayName(dir: string, e: string)
    requires |dir| > 0 && dir[|dir| - 1] == '/' && '/' !in e
    ensures PrettyName(dir + e) == Title(ReplaceChar(e, '-', ' '))
  {
    var d := dir[..|dir| - 1];
    assert dir + e == d + ['/'] + e;
    LastSegmentAfterSep(d, e, '/');
  }

  /** Turning hyphens into spaces and title-casing leaves no hyphen and no
      '/' the segment did not have, and puts a space wherever the segment had
      a hyphen or a space. */
  lemma TitleOfSpaced(seg: string)
    requires '/' !in seg
    ensures var r := Title(ReplaceChar(seg, '-', ' '));
      && |r| == |seg| && '-' !in r && '/' !in r
      && (forall i :: 0 <= i < |r| ==> (r[i] == ' ' <==> seg[i] == '-' || seg[i] == ' '))
      && (forall i :: 0 <= i < |r| && seg[i] != '-' ==>
            r[i] == (if i == 0 || IsSeparator(seg[i - 1]) then ToTitle(seg[i]) else seg[i]))
  {
    var spaced := ReplaceChar(seg, '-', ' ');
    var r := Title(spaced);
    forall i | 0 <= i < |r|
      ensures r[i] != '-' && r[i] != '/'
      ensures r[i] == ' ' <==> seg[i] == '-' || seg[i] == ' '
      ensures seg[i] != '-' ==>
        r[i] == (if i == 0 || IsSeparator(seg[i - 1]) then ToTitle(seg[i]) else seg[i])
    {
      var before := if i == 0 then ' ' else spaced[i - 1];
      TitleKeepsNonLetters(before, spaced[i]);
      assert seg[i] != '/';
      if i > 0 {
        assert IsSeparator(before) == IsSeparator(seg[i - 1]);
      }
    }
  }

  // ---------------------------------------------------------------------------
  // Discovery
  // ---------------------------------------------------------------------------

  /** The test case for a readable fixture path: its display name, its
      normalised content, and its normalised golden output (empty when the
      ".outp" companion is missing). */
  function Build(fs: FileSystem, fileName: string): TestCase {
    var content := if fs.IsFile(fileName) then fs.files[fileName] else "";
    var expected := if fs.IsFile(fileName + OutpMarker) then fs.files[fileName + OutpMarker] else "";
    TestCase(fileName, PrettyName(fileName), Normalize(content), Normalize(expected), "", false)
  }

  /** Builds the test case for one fixture path. A fixture that cannot be read
      is fatal; a missing golden file means the fixture is expected to print
      nothing. */
  function CreateTest(fs: FileSystem, fileName: string): (r: Result<TestCase, Fatal>)
    ensures r.Ok? <==> fs.IsFile(fileName)
    ensures r.Err? ==> r.error == UnreadableFile(fileName)
    ensures r.Ok? ==> r.value.fileName == fileName && r.value.prettyName == PrettyName(fileName)
    ensures r.Ok? ==> r.value.content == Normalize(fs.files[fileName])
    ensures r.Ok? && fs.IsFile(fileName + OutpMarker) ==>
      r.value.expectedOutput == Normalize(fs.files[fileName + OutpMarker])
    ensures r.Ok? && !fs.IsFile(fileName + OutpMarker) ==> r.value.expectedOutput == ""
    ensures r.Ok? ==> '\t' !in r.value.expectedOutput && '\t' !in r.value.content
    ensures r.Ok? ==> !r.value.passed && r.value.actualOutput == ""
  {
    if !fs.IsFile(fileName) then Err(UnreadableFile(fileName))
    else Ok(Build(fs, fileName))
  }

  /** The fixture paths of one directory listing: the directory joined with
      every entry whose name does not contain ".outp", in listing order. */
  function FixturePaths(dir: string, entries: seq<string>): (r: seq<string>)
    ensures |r| <= |entries|
    decreases |entries|
  {
    if |entries| == 0 then []
    else if Contains(entries[0], OutpMarker) then FixturePaths(dir, entries[1..])
    else [dir + entries[0]] + FixturePaths(dir, entries[1..])
  }

  /** A fixture path is the directory followed by a listed entry without
      ".outp", and every such entry gives one. */
  lemma {:induction false} FixturePathsMembers(dir: string, entries: seq<string>)
    ensures forall p :: p in FixturePaths(dir, entries) ==>
      exists e :: e in entries && !Contains(e, OutpMarker) && p == dir + e
    ensures forall e :: e in entries && !Contains(e, OutpMarker) ==> dir + e in FixturePaths(dir, entries)
    decreases |entries|
  {
    if |entries| > 0 {
      FixturePathsMembers(dir, entries[1..]);
      assert forall e :: e in entries ==> e == entries[0] || e in entries[1..];
    }
  }

  /** Each entry without ".outp" yields exactly as many fixture paths as it
      occurs in the listing, and an entry with ".outp" yields none. */
  lemma {:induction false} FixturePathsCount(dir: string, entries: seq<string>, e: string)
    ensures multiset(FixturePaths(dir, entries))[dir + e]
         == if Contains(e, OutpMarker) then 0 else multiset(entries)[e]
    decreases |entries|
  {
    if |entries| > 0 {
      var head := entries[0];
      FixturePathsCount(dir, entries[1..], e);
      MultisetOfTail(entries);
      if dir + head == dir + e {
        PrefixCancels(dir, head, e);
      }
    }
  }

  /** The same directory followed by two names gives the same path only for
      equal names. */
  lemma PrefixCancels(dir: string, a: string, b: string)
    requires dir + a == dir + b
    ensures a == b
  {
    assert a == (dir + a)[|dir|..];
  }

  /** `ioutil.ReadDir`: the entries of a directory, sorted by name. */
  function ReadDir(fs: FileSystem, dir: string): (r: seq<string>)
    requires fs.IsDir(dir)
    ensures multiset(r) == multiset(fs.dirs[dir]) && SortedBy(r, Self)
  {
    SortBy(fs.dirs[dir], Self)
  }

  /** Every fixture of one listing can be read. */
  predicate Readable(fs: FileSystem, paths: seq<string>) {
    forall p :: p in paths ==> fs.IsFile(p)
  }

  /** Every listed directory can be read and every fixture in it too. */
  predicate Discoverable(fs: FileSystem, dirs: seq<string>) {
    forall d :: d in dirs ==> fs.IsDir(d) && Readable(fs, FixturePaths(d, ReadDir(fs, d)))
  }

  /** The fixture paths of all directories, directory by directory. */
  function AllFixturePaths(fs: FileSystem, dirs: seq<string>): seq<string>
    requires forall d :: d in dirs ==> fs.IsDir(d)
    decreases |dirs|
  {
    if |dirs| == 0 then []
    else
      assert dirs[0] in dirs && fs.IsDir(dirs[0]);
      assert forall d :: d in dirs[1..] ==> d in dirs;
      FixturePaths(dirs[0], ReadDir(fs, dirs[0])) + AllFixturePaths(fs, dirs[1..])
  }

  /** `Build` as a function value, to map over fixture paths. */
  function Builder(fs: FileSystem): string -> TestCase {
    (p: string) => Build(fs, p)
  }

  /** The cases discovery builds for readable fixture paths are the ones
      `CreateTest` builds, each carrying its own path. */
  lemma CreatedPointwise(fs: FileSystem, paths: seq<string>, i: int)
    requires Readable(fs, paths) && 0 <= i < |paths|
    ensures CreateTest(fs, paths[i]) == Ok(MapSeq(Builder(fs), paths)[i])
    ensures MapSeq(Builder(fs), paths)[i].fileName == paths[i]
  {
    assert paths[i] in paths;
  }

  /** Fixtures readable in two parts are readable together. */
  lemma ReadableAppend(fs: FileSystem, a: seq<string>, b: seq<string>)
    requires Readable(fs, a) && Readable(fs, b)
    ensures Readable(fs, a + b)
  {
    assert forall q :: q in a + b ==> q in a || q in b;
  }

  /** A path in front is readable with the rest exactly when it and the rest are. */
  lemma ReadableCons(fs: FileSystem, p: string, paths: seq<string>)
    ensures Readable(fs, [p] + paths) <==> fs.IsFile(p) && Readable(fs, paths)
  {
    assert forall q :: q in [p] + paths <==> q == p || q in paths;
  }

  /** The inner discovery loop over one directory listing: a test case per
      fixture path, in listing order; the first unreadable fixture is fatal. */
  function DiscoverEntries(fs: FileSystem, dir: string, entries: seq<string>): (r: Result<seq<TestCase>, Fatal>)
    ensures r.Ok? <==> Readable(fs, FixturePaths(dir, entries))
    ensures r.Ok? ==> r.value == MapSeq(Builder(fs), FixturePaths(dir, entries))
    decreases |entries|
  {
    if |entries| == 0 then Ok([])
    else
      var rest := DiscoverEntries(fs, dir, entries[1..]);
      if Contains(entries[0], OutpMarker) then rest
      else
        var p := dir + entries[0];
        var paths := FixturePaths(dir, entries[1..]);
        ReadableCons(fs, p, paths);
        if !fs.IsFile(p) then Err(UnreadableFile(p))
        else if rest.Err? then rest
        else
          assert ([p] + paths)[1..] == paths;
          Ok([Build(fs, p)] + rest.value)
  }

  /** Discovery of a list of directories splits into its first directory and the rest. */
  lemma DiscoverableCons(fs: FileSystem, dirs: seq<string>)
    requires |dirs| > 0
    ensures Discoverable(fs, dirs)
        <==> fs.IsDir(dirs[0]) && Readable(fs, FixturePaths(dirs[0], ReadDir(fs, dirs[0]))) && Discoverable(fs, dirs[1..])
  {
    assert forall d :: d in dirs <==> d == dirs[0] || d in dirs[1..];
  }

  /** Every fixture path of discoverable directories can be read. */
  lemma {:induction false} DiscoverableReadable(fs: FileSystem, dirs: seq<string>)
    requires Discoverable(fs, dirs)
    ensures Readable(fs, AllFixturePaths(fs, dirs))
    decreases |dirs|
  {
    if |dirs| > 0 {
      DiscoverableCons(fs, dirs);
      DiscoverableReadable(fs, dirs[1..]);
      ReadableAppend(fs, FixturePaths(dirs[0], ReadDir(fs, dirs[0])), AllFixturePaths(fs, dirs[1..]));
    }
  }

  /** main.go's discovery loop: every directory in order, failing on the first
      directory or fixture that cannot be read. On success, one case per
      fixture path, each built by `CreateTest`. */
  function Discover(fs: FileSystem, dirs: seq<string>): (r: Result<seq<TestCase>, Fatal>)
    ensures r.Ok? <==> Discoverable(fs, dirs)
    ensures r.Ok? ==> r.value == MapSeq(Builder(fs), AllFixturePaths(fs, dirs))
    decreases |dirs|
  {
    if |dirs| == 0 then Ok([])
    else
      DiscoverableCons(fs, dirs);
      if !fs.IsDir(dirs[0]) then Err(UnreadableDirectory(dirs[0]))
      else
        var here := DiscoverEntries(fs, dirs[0], ReadDir(fs, dirs[0]));
        if here.Err? then Err(here.error)
        else
          var rest := Discover(fs, dirs[1..]);
          if rest.Err? then rest
          else
            MapSeqAppend(Builder(fs), FixturePaths(dirs[0], ReadDir(fs, dirs[0])), AllFixturePaths(fs, dirs[1..]));
            Ok(here.value + rest.value)
  }

  /** The sort key of main.go's `TestCases.Less`. */
  function PrettyKey(t: TestCase): string {
    t.prettyName
  }

  // ---------------------------------------------------------------------------
  // Running and judging one case
  // ---------------------------------------------------------------------------

  /** Runs one case under the fatal-crash policy. A non-zero exit fails
      whatever was printed, and the recorded output is the crash banner
      followed by the normalised output; a clean exit passes exactly when the normalised output equals
      the expected output. Nothing fixed at discovery changes. */
  function RunTest(t: TestCase, o: Outcome): (r: TestCase)
    ensures r.fileName == t.fileName && r.prettyName == t.prettyName
    ensures r.content == t.content && r.expectedOutput == t.expectedOutput
    ensures !o.exitOk ==> !r.passed && CrashBanner[..|CrashBanner| - 1] <= r.actualOutput
    ensures !o.exitOk ==> CrashLine <= r.actualOutput
    ensures !o.exitOk && |o.output| > 0 ==> r.actualOutput == CrashBanner + Normalize(o.output)
    ensures !o.exitOk && o.output == "" ==> r.actualOutput == CrashBanner[..|CrashBanner| - 1]
    ensures o.exitOk ==> r.actualOutput == Normalize(o.output)
    ensures o.exitOk ==> (r.passed <==> Normalize(o.output) == t.expectedOutput)
  {
    if !o.exitOk then
      CrashBannerStaysInFront(o.output);
      CrashOutputFollowsBanner(o.output);
      t.(actualOutput := Normalize(CrashBanner + o.output), passed := false)
    else
      var actual := Normalize(o.output);
      t.(actualOutput := actual, passed := actual == t.expectedOutput)
  }

  /** Normalising a tab-free text followed by anything keeps that text, less
      at most its final character, at the front. */
  lemma NormalizeKeepsTabFreePrefix(pre: string, rest: string)
    requires |pre| > 0 && '\t' !in pre
    ensures pre[..|pre| - 1] <= Normalize(pre + rest)
  {
    var head := pre[..|pre| - 1];
    var s := pre + rest;
    var body := StripEndNewline(s);
    assert '\t' !in head by {
      assert forall i :: 0 <= i < |head| ==> head[i] == pre[i];
    }
    assert body[..|head|] == head by {
      assert s[..|head|] == head;
    }
    var tail := body[|head|..];
    assert body == head + tail;
    RemoveCharAppend(head, tail, '\t');
    assert Normalize(s) == RemoveChar(body, '\t') == head + RemoveChar(tail, '\t');
  }

  /** Normalising a tab-free text followed by non-empty output keeps the text
      whole and normalises the output on its own: the newline that goes is
      the output's. */
  lemma NormalizeAfterTabFree(pre: string, out: string)
    requires '\t' !in pre && |out| > 0
    ensures Normalize(pre + out) == pre + Normalize(out)
  {
    var s := pre + out;
    var body := StripEndNewline(out);
    assert s[|s| - 1] == out[|out| - 1];
    assert StripEndNewline(s) == pre + body by {
      if EndsWithNewline(out) {
        assert s[..|s| - 1] == pre + out[..|out| - 1];
      }
    }
    RemoveCharAppend(pre, body, '\t');
  }

  /** A crashed case's recorded output is the banner followed by its own
      normalised output; when it printed nothing, the banner's final newline
      is the one that goes. */
  lemma CrashOutputFollowsBanner(output: string)
    ensures |output| > 0 ==> Normalize(CrashBanner + output) == CrashBanner + Normalize(output)
    ensures output == "" ==> Normalize(CrashBanner + output) == CrashBanner[..|CrashBanner| - 1]
  {
    CrashBannerHasNoTab();
    assert '\t' !in CrashBanner;
    if |output| > 0 {
      NormalizeAfterTabFree(CrashBanner, output);
    } else {
      assert CrashBanner + output == CrashBanner;
      CrashBannerEndsWithNewline();
      NormalizeTabFreeLine(CrashBanner);
    }
  }

  /** The banner's last line, and so the banner, ends in a newline. */
  lemma CrashBannerEndsWithNewline()
    ensures EndsWithNewline(CrashBanner)
  {
    var last := "--------------------\n";
    assert EndsWithNewline(last);
    NewlineAtEndSurvives("The output is below\n" + "--------------------", last);
    NewlineAtEndSurvives(CrashLine2, CrashLine3);
    NewlineAtEndSurvives(CrashLine, CrashDetail);
  }

  /** Text ends in a newline when what comes last does. */
  lemma NewlineAtEndSurvives(a: string, b: string)
    requires EndsWithNewline(b)
    ensures EndsWithNewline(a + b)
  {
    assert (a + b)[|a + b| - 1] == b[|b| - 1];
  }

  /** Tab-free text ending in a newline normalises to itself less that newline. */
  lemma NormalizeTabFreeLine(s: string)
    requires '\t' !in s && EndsWithNewline(s)
    ensures Normalize(s) == s[..|s| - 1]
  {
    var head := s[..|s| - 1];
    assert '\t' !in head by {
      assert forall i :: 0 <= i < |head| ==> head[i] == s[i];
    }
  }

  /** Normalising the banner followed by any output keeps the banner, less at
      most its final newline, at the front. */
  lemma CrashBannerStaysInFront(output: string)
    ensures CrashBanner[..|CrashBanner| - 1] <= Normalize(CrashBanner + output)
    ensures CrashLine <= Normalize(CrashBanner + output)
  {
    CrashBannerHasNoTab();
    LeadingLineSurvives(CrashLine, CrashDetail, output);
  }

  /** A tab-free first line followed by a tab-free rest survives normalisation at the front. */
  lemma LeadingLineSurvives(line: string, rest: string, output: string)
    requires '\t' !in line && '\t' !in rest && |rest| > 0
    ensures (line + rest)[..|line + rest| - 1] <= Normalize(line + rest + output)
    ensures line <= Normalize(line + rest + output)
  {
    NormalizeKeepsTabFreePrefix(line + rest, output);
    assert (line + rest)[..|line|] == line;
  }

  /** Output that normalises to the golden text passes on a clean exit, and
      fails all the same when the binary exited with a non-zero status. */
  lemma CleanMatchPasses(t: TestCase, output: string)
    requires Normalize(output) == t.expectedOutput
    ensures RunTest(t, Outcome(true, output)).passed
    ensures RunTest(t, Outcome(false, output)).passed == false
  {
  }

  // ---------------------------------------------------------------------------
  // Running the suite
  // ---------------------------------------------------------------------------

  /** How a run of the suite ended: every case ran, or the run stopped with
      exit status 1 at the first failure. */
  datatype GoRun = Completed(results: seq<TestCase>) | ExitedOnFail(results: seq<TestCase>)

  /** The process exit status main.go ends with: 1 only after an early exit,
      so a run that completed exits 0 however many cases failed. */
  function ExitCode(run: GoRun): (code: int)
    ensures code == 0 || code == 1
    ensures code == 0 <==> run.Completed?
  {
    if run.ExitedOnFail? then 1 else 0
  }

  /** How main.go judges one case: runs the binary on its fixture path and
      applies `RunTest`. */
  function Judge(binary: string -> Outcome): TestCase -> TestCase {
    (t: TestCase) => RunTest(t, binary(t.fileName))
  }

  /** Judging a case keeps its display name. */
  lemma JudgeKeepsNames(binary: string -> Outcome)
    ensures forall t: TestCase :: Judge(binary)(t).prettyName == t.prettyName
  {
    forall t: TestCase
      ensures Judge(binary)(t).prettyName == t.prettyName
    {
      assert Judge(binary)(t) == RunTest(t, binary(t.fileName));
    }
  }

  /** Every case among `rs` passed. */
  predicate AllPass(rs: seq<TestCase>) {
    forall i :: 0 <= i < |rs| ==> rs[i].passed
  }

  /** A passed case put in front of passed cases gives passed cases. */
  lemma PrependPassed(t: TestCase, rs: seq<TestCase>)
    requires t.passed && AllPass(rs)
    ensures AllPass([t] + rs)
  {
    forall i | 0 <= i < |[t] + rs|
      ensures ([t] + rs)[i].passed
    {
      if i > 0 {
        assert ([t] + rs)[i] == rs[i - 1];
      }
    }
  }

  /** The index of the first failed case, or `|rs|` when all passed. */
  function FirstFailure(rs: seq<TestCase>): (k: nat)
    ensures k <= |rs|
    ensures AllPass(rs[..k])
    ensures k < |rs| ==> !rs[k].passed
    decreases |rs|
  {
    if |rs| == 0 then 0
    else if !rs[0].passed then 0
    else
      var k := FirstFailure(rs[1..]);
      PrependPassed(rs[0], rs[1..][..k]);
      assert rs[..k + 1] == [rs[0]] + rs[1..][..k];
      k + 1
  }

  /** The run loop: each case in order is judged once; with `exitOnFail`,
      the loop ends after the first failing case. Judging is a function of
      the case, so the cases that ran have the results a run that nothing
      stops gives them. */
  function RunAll(cases: seq<TestCase>, judge: TestCase -> TestCase, exitOnFail: bool): (r: GoRun)
    ensures r.results <= MapSeq(judge, cases)
    ensures r.Completed? ==> r.results == MapSeq(judge, cases)
    ensures !exitOnFail ==> r.Completed?
    ensures r.ExitedOnFail? ==>
      && exitOnFail && |r.results| > 0 && !r.results[|r.results| - 1].passed
      && AllPass(r.results[..|r.results| - 1])
    ensures r.Completed? && exitOnFail ==> AllPass(r.results)
  {
    var each := MapSeq(judge, cases);
    if !exitOnFail then Completed(each)
    else
      var k := FirstFailure(each);
      if k == |each| then
        assert each[..k] == each;
        Completed(each)
      else
        assert each[..k + 1][..k] == each[..k];
        ExitedOnFail(each[..k + 1])
  }

  /** Some case fails when judged. */
  predicate SomeCaseFails(cases: seq<TestCase>, judge: TestCase -> TestCase) {
    exists i :: 0 <= i < |cases| && !judge(cases[i]).passed
  }

  /** With early exit, the run stops, with exit status 1, exactly when some
      case fails. */
  lemma EarlyExitIffSomeCaseFails(cases: seq<TestCase>, judge: TestCase -> TestCase)
    ensures RunAll(cases, judge, true).ExitedOnFail? <==> SomeCaseFails(cases, judge)
    ensures ExitCode(RunAll(cases, judge, true)) == 1 <==> SomeCaseFails(cases, judge)
  {
    var early := RunAll(cases, judge, true);
    var each := MapSeq(judge, cases);
    if early.ExitedOnFail? {
      var k := |early.results| - 1;
      assert early.results[k] == each[k];
      assert !judge(cases[k]).passed;
    } else {
      forall i | 0 <= i < |cases|
        ensures judge(cases[i]).passed
      {
        assert early.results[i] == each[i];
      }
    }
  }

  /** The cases an early-exit run ran are the first ones a full run runs, with
      the same results. */
  lemma EarlyExitRunsPrefix(cases: seq<TestCase>, judge: TestCase -> TestCase)
    ensures RunAll(cases, judge, true).results <= RunAll(cases, judge, false).results
  {
  }

  // ---------------------------------------------------------------------------
  // Tally
  // ---------------------------------------------------------------------------

  /** The number of passed cases. */
  function CountPassed(rs: seq<TestCase>): (n: nat)
    ensures n <= |rs|
    ensures n == |rs| <==> forall i :: 0 <= i < |rs| ==> rs[i].passed
    decreases |rs|
  {
    if |rs| == 0 then 0
    else CountPassed(rs[..|rs| - 1]) + (if rs[|rs| - 1].passed then 1 else 0)
  }

  /** Pass counts add up over consecutive runs of cases. */
  lemma {:induction false} CountPassedAppend(a: seq<TestCase>, b: seq<TestCase>)
    ensures CountPassed(a + b) == CountPassed(a) + CountPassed(b)
    decreases |b|
  {
    if |b| == 0 {
      assert a + b == a;
    } else {
      var n := |b|;
      assert (a + b)[..|a + b| - 1] == a + b[..n - 1];
      assert (a + b)[|a + b| - 1] == b[n - 1];
      CountPassedAppend(a, b[..n - 1]);
    }
  }

  /** The statistics loop after the run: counts the passed cases and the
      total, which are equal exactly when every case passed. */
  method Tally(rs: seq<TestCase>) returns (nPassed: nat, nTotal: nat)
    ensures nTotal == |rs| && nPassed == CountPassed(rs)
    ensures nPassed <= nTotal
    ensures nPassed == nTotal <==> forall i :: 0 <= i < |rs| ==> rs[i].passed
  {
    nTotal := |rs|;
    nPassed := 0;
    var i := 0;
    while i < |rs|
      invariant 0 <= i <= |rs|
      invariant nPassed == CountPassed(rs[..i])
    {
      assert rs[..i + 1][..i] == rs[..i];
      if rs[i].passed {
        nPassed := nPassed + 1;
      }
      i := i + 1;
    }
    assert rs[..i] == rs;
  }

  /** The closing statistics: passed and total counts and whether the
      congratulations banner is shown. */
  datatype Summary = Summary(nPassed: nat, nTotal: nat, congratulate: bool)

  /** The summary of a completed run: the banner shows exactly when every case
      passed (so also when there were no cases at all). */
  function Summarize(rs: seq<TestCase>): (s: Summary)
    ensures s.nPassed <= s.nTotal == |rs|
    ensures s.congratulate <==> forall i :: 0 <= i < |rs| ==> rs[i].passed
    ensures s.nTotal - s.nPassed == |rs| - CountPassed(rs)
  {
    var n := CountPassed(rs);
    Summary(n, |rs|, n == |rs|)
  }

  // ---------------------------------------------------------------------------
  // The whole harness
  // ---------------------------------------------------------------------------

  /** main.go from discovery to the end of the run loop: discover the
      fixtures of its seven directories, sort by display name, run. It fails only when discovery does; the cases it runs
      come in non-decreasing display-name order, and a completed run ran one
      case per fixture. */
  function Harness(fs: FileSystem, exitOnFail: bool, binary: string -> Outcome): (r: Result<GoRun, Fatal>)
    ensures r.Ok? <==> Discoverable(fs, TestDirs)
    ensures r.Ok? ==> SortedBy(r.value.results, PrettyKey)
    ensures r.Ok? ==> r.value.results <= MapSeq(Judge(binary), SortBy(Discover(fs, TestDirs).value, PrettyKey))
    ensures r.Ok? && r.value.Completed? ==> |r.value.results| == |AllFixturePaths(fs, TestDirs)|
    ensures r.Ok? && !exitOnFail ==> r.value.Completed?
  {
    var cases :- Discover(fs, TestDirs);
    var sorted := SortBy(cases, PrettyKey);
    var run := RunAll(sorted, Judge(binary), exitOnFail);
    JudgeKeepsNames(binary);
    RunKeepsOrder(sorted, run.results, Judge(binary));
    Ok(run)
  }

  /** Running cases keeps their display names, so a run of cases sorted by
      display name reports them in that order. */
  lemma RunKeepsOrder(sorted: seq<TestCase>, results: seq<TestCase>, judge: TestCase -> TestCase)
    requires SortedBy(sorted, PrettyKey)
    requires forall t: TestCase :: judge(t).prettyName == t.prettyName
    requires results <= MapSeq(judge, sorted)
    ensures SortedBy(results, PrettyKey)
  {
    var each := MapSeq(judge, sorted);
    forall i, j | 0 <= i < j < |results|
      ensures LexLe(PrettyKey(results[i]), PrettyKey(results[j]))
    {
      assert results[i] == each[i] && results[j] == each[j];
      assert LexLe(PrettyKey(sorted[i]), PrettyKey(sorted[j]));
    }
  }
}

=== FILE: logans_harness.dfy ===
/** The single-directory harness of `logans/harness.py`: it runs the parser on
    every regular file of `tests/` in name order and compares what the parser
    printed with the golden files under `tests/out/` and `tests/err/`, either
    exactly or, in syntax mode, only as to whether a syntax error was reported.
    It prints one dot per test, a running count after every 25th test, and
    finally the sorted names of the failed tests or "All tests passed.". */
module LogansHarness {
  import opened Env
  import opened Strings
  import opened Sorting

  /** The directory of test programs below the working directory `cwd`. */
  function TestDir(cwd: string): string {
    cwd + "/tests/"
  }

  /** The golden standard-output files. */
  function OutDir(cwd: string): string {
    TestDir(cwd) + "out/"
  }

  /** The golden standard-error files. */
  function ErrDir(cwd: string): string {
    TestDir(cwd) + "err/"
  }

  /** The one standard-error text that syntax mode looks for. */
  const SyntaxError := "syntax error"

  /** Tests report progress with a running count after every this many tests. */
  const CountEvery := 25

  datatype Mode = Standard | SyntaxOnly

  /** The mode chosen by the command line: syntax mode exactly when the one
      argument after the program name is `syntax`. */
  function ModeOf(argv: seq<string>): (m: Mode)
    ensures m == SyntaxOnly <==> |argv| == 2 && argv[1] == "syntax"
  {
    if |argv| == 2 && argv[1] == "syntax" then SyntaxOnly else Standard
  }

  /** Why a run stops with an uncaught exception: the test directory cannot
      be listed, or a golden file cannot be opened. */
  datatype Crash = MissingDirectory(path: string) | MissingGolden(path: string)

  /** `name`, listed in `dir`, is a regular file. */
  predicate IsFileIn(fs: FileSystem, dir: string, name: string) {
    fs.IsFile(Join(dir, name))
  }

  /** `names` holds each regular file listed in `dir` as often as the
      listing does, and nothing else. */
  ghost predicate HoldsTheFiles(fs: FileSystem, dir: string, names: seq<string>)
    requires fs.IsDir(dir)
  {
    forall f :: multiset(names)[f] == if IsFileIn(fs, dir, f) then multiset(fs.dirs[dir])[f] else 0
  }

  /** `getFilesOnly`: the names listed in `path`, sorted, keeping those that
      name a regular file. */
  function GetFilesOnly(fs: FileSystem, path: string): (r: Result<seq<string>, Crash>)
    ensures r.Ok? <==> fs.IsDir(path)
    ensures r.Err? ==> r.error == MissingDirectory(path)
    ensures r.Ok? ==> SortedBy(r.value, Self) && HoldsTheFiles(fs, path, r.value)
  {
    if !fs.IsDir(path) then Err(MissingDirectory(path))
    else
      var sorted := SortBy(fs.dirs[path], Self);
      var keep := f => IsFileIn(fs, path, f);
      KeepSorted(sorted, keep, Self);
      KeepHoldsTheFiles(fs, path, sorted);
      Ok(Keep(sorted, keep))
  }

  /** Keeping the regular files of any rearrangement of the listing keeps
      each of them as often as the listing holds it. */
  lemma KeepHoldsTheFiles(fs: FileSystem, path: string, sorted: seq<string>)
    requires fs.IsDir(path) && multiset(sorted) == multiset(fs.dirs[path])
    ensures HoldsTheFiles(fs, path, Keep(sorted, f => IsFileIn(fs, path, f)))
  {
    var keep := f => IsFileIn(fs, path, f);
    var r := Keep(sorted, keep);
    forall f
      ensures multiset(r)[f] == if IsFileIn(fs, path, f) then multiset(fs.dirs[path])[f] else 0
    {
      assert multiset(r)[f] == if keep(f) then multiset(sorted)[f] else 0;
    }
  }

  /** The file enumeration is determined by the listing: it is the only
      sorted sequence holding each regular file as often as the listing does. */
  lemma GetFilesOnlyIsTheSortedFiles(fs: FileSystem, path: string, names: seq<string>)
    requires fs.IsDir(path)
    requires SortedBy(names, Self) && HoldsTheFiles(fs, path, names)
    ensures GetFilesOnly(fs, path) == Ok(names)
  {
    var r := GetFilesOnly(fs, path).value;
    forall f
      ensures multiset(r)[f] == multiset(names)[f]
    {
      assert multiset(r)[f] == if IsFileIn(fs, path, f) then multiset(fs.dirs[path])[f] else 0;
    }
    assert multiset(r) == multiset(names);
    SortedStringsUnique(r, names);
  }

  /** The verdict on one test, given the parser's output and the golden
      output and error text. */
  function Passes(mode: Mode, got: Streams, correctOut: string, correctErr: string): (ok: bool)
    ensures mode == Standard ==> (ok <==> got == Streams(correctOut, correctErr))
    ensures mode == SyntaxOnly ==> (ok <==> ((got.stderr == SyntaxError) <==> (correctErr == SyntaxError)))
  {
    match mode
    case SyntaxOnly =>
      if correctErr == SyntaxError then got.stderr == SyntaxError
      else got.stderr != SyntaxError
    case Standard =>
      got.stdout == correctOut && got.stderr == correctErr
  }

  /** Syntax mode is the more lenient: a test passed in standard mode is
      passed in syntax mode too. */
  lemma StandardPassImpliesSyntaxPass(got: Streams, correctOut: string, correctErr: string)
    requires Passes(Standard, got, correctOut, correctErr)
    ensures Passes(SyntaxOnly, got, correctOut, correctErr)
  {
  }

  /** Syntax mode looks at neither output stream's golden counterpart nor the
      parser's standard output: only at the two error texts. */
  lemma SyntaxVerdictIgnoresStdout(got: Streams, out2: string, correctOut1: string, correctOut2: string, correctErr: string)
    ensures Passes(SyntaxOnly, got, correctOut1, correctErr) ==
            Passes(SyntaxOnly, Streams(out2, got.stderr), correctOut2, correctErr)
  {
  }

  /** Opening a golden file: its content, or the exception that ends the run. */
  function ReadGolden(fs: FileSystem, path: string): (r: Result<string, Crash>)
    ensures r.Ok? <==> fs.IsFile(path)
    ensures r.Ok? ==> r.value == fs.files[path]
    ensures r.Err? ==> r.error == MissingGolden(path)
  {
    if fs.IsFile(path) then Ok(fs.files[path]) else Err(MissingGolden(path))
  }

  /** What every test of a run shares: the file system, the directories of
      tests and of golden files, the mode, and the parser's behaviour as a
      function of the path it is given. */
  datatype Setup = Setup(fs: FileSystem, testDir: string, outDir: string, errDir: string, mode: Mode, parser: string -> Streams)

  /** The setup of a run started in the working directory `cwd`. */
  function SetupIn(fs: FileSystem, cwd: string, mode: Mode, parser: string -> Streams): Setup {
    Setup(fs, TestDir(cwd), OutDir(cwd), ErrDir(cwd), mode, parser)
  }

  /** Both golden files of a test can be opened. */
  predicate HasGolden(setup: Setup, f: string) {
    setup.fs.IsFile(setup.outDir + f) && setup.fs.IsFile(setup.errDir + f)
  }

  /** Running one test: the parser is given the test's path; the golden
      output is opened before the golden error. */
  function Verdict(setup: Setup, f: string): (r: Result<bool, Crash>)
    ensures r.Ok? <==> HasGolden(setup, f)
    ensures r.Ok? ==> (r.value ==
      Passes(setup.mode, setup.parser(setup.testDir + f), setup.fs.files[setup.outDir + f], setup.fs.files[setup.errDir + f]))
    ensures r.Err? ==> (r.error ==
      MissingGolden(if setup.fs.IsFile(setup.outDir + f) then setup.errDir + f else setup.outDir + f))
  {
    var correctOut :- ReadGolden(setup.fs, setup.outDir + f);
    var correctErr :- ReadGolden(setup.fs, setup.errDir + f);
    Ok(Passes(setup.mode, setup.parser(setup.testDir + f), correctOut, correctErr))
  }

  /** The test named `f` ran and passed. */
  predicate Passed(setup: Setup, f: string) {
    var v := Verdict(setup, f);
    v.Ok? && v.value
  }

  /** The verdicts on `files`, in order. */
  function Verdicts(setup: Setup, files: seq<string>): (r: seq<bool>)
    ensures |r| == |files|
    ensures forall i :: 0 <= i < |files| ==> r[i] == Passed(setup, files[i])
    decreases |files|
  {
    if |files| == 0 then []
    else Verdicts(setup, files[..|files| - 1]) + [Passed(setup, files[|files| - 1])]
  }

  /** One piece of progress output: a dot per test (green when it passed,
      red when it failed) or the number of tests run so far. */
  datatype Mark = Dot(passed: bool) | Count(n: nat)

  /** The progress output for a run whose verdicts were `v`: one dot per test
      and one count per 25 tests. */
  function Progress(v: seq<bool>): (r: seq<Mark>)
    ensures |r| == |v| + |v| / CountEvery
    decreases |v|
  {
    if |v| == 0 then []
    else
      var n := |v|;
      Progress(v[..n - 1]) + [Dot(v[n - 1])] + (if n % CountEvery == 0 then [Count(n)] else [])
  }

  /** The dots of a progress output, as the verdicts they show. */
  function Dots(marks: seq<Mark>): (r: seq<bool>)
    ensures |r| <= |marks|
    decreases |marks|
  {
    if |marks| == 0 then []
    else
      var last := marks[|marks| - 1];
      Dots(marks[..|marks| - 1]) + (if last.Dot? then [last.passed] else [])
  }

  /** A dot adds its verdict to the dots shown; a count adds nothing. */
  lemma DotsStep(marks: seq<Mark>, m: Mark)
    ensures Dots(marks + [m]) == Dots(marks) + (if m.Dot? then [m.passed] else [])
  {
    assert (marks + [m])[..|marks|] == marks;
  }

  /** The dots show every verdict, in the order the tests ran. */
  lemma {:induction false} ProgressShowsEveryVerdict(v: seq<bool>)
    ensures Dots(Progress(v)) == v
    decreases |v|
  {
    if |v| > 0 {
      var n := |v|;
      var front := v[..n - 1];
      assert v == front + [v[n - 1]];
      ProgressStep(front, v[n - 1]);
      ProgressShowsEveryVerdict(front);
      var dotted := Progress(front) + [Dot(v[n - 1])];
      DotsStep(Progress(front), Dot(v[n - 1]));
      if n % CountEvery == 0 {
        DotsStep(dotted, Count(n));
      } else {
        assert dotted + [] == dotted;
      }
    }
  }

  /** Progress output grows by a dot, and a count after every 25th test. */
  lemma ProgressStep(v: seq<bool>, b: bool)
    ensures Progress(v + [b]) ==
      Progress(v) + [Dot(b)] + (if (|v| + 1) % CountEvery == 0 then [Count(|v| + 1)] else [])
  {
    assert (v + [b])[..|v|] == v;
  }

  /** A running count `k` is printed exactly for the multiples of 25 among
      the numbers of tests run. */
  lemma {:induction false} ProgressCountsEvery25(v: seq<bool>, k: nat)
    ensures Count(k) in Progress(v) <==> 1 <= k <= |v| && k % CountEvery == 0
    decreases |v|
  {
    if |v| > 0 {
      ProgressCountsEvery25(v[..|v| - 1], k);
    }
  }

  /** The count `k` is printed right after the dot of the k-th test: the
      output for the first `k` tests ends with `Count(k)`, and the output of
      the whole run begins with it. */
  lemma {:induction false} ProgressCountFollowsItsTest(v: seq<bool>, k: nat)
    requires 1 <= k <= |v| && k % CountEvery == 0
    ensures Progress(v[..k]) <= Progress(v)
    ensures Progress(v[..k])[|Progress(v[..k])| - 1] == Count(k)
    decreases |v|
  {
    var w := v[..k];
    assert |w| == k && w[..k - 1] == v[..k - 1];
    if k == |v| {
      assert w == v;
    } else {
      var front := v[..|v| - 1];
      assert front[..k] == w;
      ProgressCountFollowsItsTest(front, k);
      var tail := [Dot(v[|v| - 1])] + (if |v| % CountEvery == 0 then [Count(|v|)] else []);
      assert Progress(v) == Progress(front) + tail;
    }
  }

  /** The closing report: the failed tests in name order, or that all passed. */
  datatype Closing = AllPassed | FailedTests(count: nat, names: seq<string>)

  /** The closing report for the failed names `incorrect`: that all passed
      exactly when none failed, and otherwise how many failed and their names
      sorted. */
  function ClosingFor(incorrect: seq<string>): (c: Closing)
    ensures c == AllPassed <==> |incorrect| == 0
    ensures c.FailedTests? ==>
      c.count == |incorrect| && multiset(c.names) == multiset(incorrect) && SortedBy(c.names, Self)
  {
    if |incorrect| > 0 then FailedTests(|incorrect|, SortBy(incorrect, Self)) else AllPassed
  }

  /** What a run that reached its end printed and counted. */
  datatype Report = Report(numTests: nat, incorrect: seq<string>, marks: seq<Mark>, closing: Closing)

  /** The run reaches its end: the test directory can be listed and every
      test has both golden files. */
  predicate Runnable(setup: Setup) {
    var files := GetFilesOnly(setup.fs, setup.testDir);
    files.Ok? && AllHaveGolden(setup, files.value)
  }

  /** The names of the failing tests, in the order the tests ran. */
  function Failing(setup: Setup, files: seq<string>): (r: seq<string>)
    ensures |r| <= |files|
    decreases |files|
  {
    if |files| == 0 then []
    else
      var f := files[|files| - 1];
      Failing(setup, files[..|files| - 1]) + (if Passed(setup, f) then [] else [f])
  }

  /** The failing names are the files kept by the failing filter. */
  lemma {:induction false} FailingIsKept(setup: Setup, files: seq<string>)
    ensures Failing(setup, files) == Keep(files, f => !Passed(setup, f))
    decreases |files|
  {
    if |files| > 0 {
      FailingIsKept(setup, files[..|files| - 1]);
    }
  }

  /** The `i`th test is the first whose golden files cannot both be opened. */
  predicate StopsAt(setup: Setup, files: seq<string>, i: int) {
    0 <= i < |files| && AllHaveGolden(setup, files[..i]) && !HasGolden(setup, files[i])
  }

  /** What running a list of tests counted and printed as it went. */
  datatype Tally = Tally(numTests: nat, incorrect: seq<string>, marks: seq<Mark>)

  /** The loop of `main` over the test files: runs them in order, stopping
      at the first one whose golden files cannot be opened. */
  method RunFiles(setup: Setup, files: seq<string>)
    returns (r: Result<Tally, Crash>)
    ensures r.Ok? <==> AllHaveGolden(setup, files)
    ensures r.Err? ==>
      exists i :: StopsAt(setup, files, i) && Err(r.error) == Verdict(setup, files[i])
    ensures r.Ok? ==>
      && r.value.numTests == |files|
      && r.value.incorrect == Failing(setup, files)
      && r.value.marks == Progress(Verdicts(setup, files))
      && |r.value.incorrect| <= r.value.numTests
  {
    var numTests: nat := 0;
    var incorrect: seq<string> := [];
    var marks: seq<Mark> := [];
    while numTests < |files|
      invariant numTests <= |files|
      invariant FilesSoFar(setup, files, numTests, incorrect, marks)
    {
      var f := files[numTests];
      var verdict := Verdict(setup, f);
      if verdict.Err? {
        assert StopsAt(setup, files, numTests);
        return Err(verdict.error);
      }
      ghost var ran, incorrectBefore, marksBefore := numTests, incorrect, marks;
      numTests := numTests + 1;
      var count: seq<Mark> := if numTests % CountEvery == 0 then [Count(numTests)] else [];
      marks := marks + [Dot(verdict.value)] + count;
      if !verdict.value {
        incorrect := incorrect + [f];
      }
      FilesStep(setup, files, ran, incorrectBefore, marksBefore, verdict.value, incorrect, marks);
    }
    assert files[..numTests] == files;
    return Ok(Tally(numTests, incorrect, marks));
  }

  /** A test passes, read straight off the command line, the parser's output
      and the golden files: both golden files exist, and with the single
      argument `syntax` the parser reports a syntax error exactly when the
      golden error text is one; otherwise both streams equal their golden
      texts. */
  predicate PassesOnCommandLine(fs: FileSystem, cwd: string, argv: seq<string>, parser: string -> Streams, f: string) {
    var got := parser(TestDir(cwd) + f);
    && fs.IsFile(OutDir(cwd) + f) && fs.IsFile(ErrDir(cwd) + f)
    && if |argv| == 2 && argv[1] == "syntax" then (got.stderr == SyntaxError <==> fs.files[ErrDir(cwd) + f] == SyntaxError)
       else got.stdout == fs.files[OutDir(cwd) + f] && got.stderr == fs.files[ErrDir(cwd) + f]
  }

  /** A test passes under the mode the command line selects exactly when it
      passes by the direct reading. */
  lemma PassedOnCommandLine(fs: FileSystem, cwd: string, argv: seq<string>, parser: string -> Streams, f: string)
    ensures Passed(SetupIn(fs, cwd, ModeOf(argv), parser), f) <==> PassesOnCommandLine(fs, cwd, argv, parser, f)
  {
  }

  /** The state of the loop of `main` after its first `n` tests: all of them
      had their golden files, the failing ones are listed in order, and the
      progress output shows their verdicts. */
  ghost predicate FilesSoFar(setup: Setup, files: seq<string>, n: nat, incorrect: seq<string>, marks: seq<Mark>)
    requires n <= |files|
  {
    && AllHaveGolden(setup, files[..n])
    && incorrect == Failing(setup, files[..n])
    && marks == Progress(Verdicts(setup, files[..n]))
  }

  /** Running the next test, which has its golden files, moves the loop state
      on by one test: a failure is listed, and a dot (and every 25 tests a
      count) is printed. */
  lemma FilesStep(setup: Setup, files: seq<string>, n: nat, incorrect: seq<string>, marks: seq<Mark>,
                  ok: bool, incorrect': seq<string>, marks': seq<Mark>)
    requires n < |files| && FilesSoFar(setup, files, n, incorrect, marks)
    requires HasGolden(setup, files[n]) && (ok <==> Passed(setup, files[n]))
    requires incorrect' == incorrect + (if ok then [] else [files[n]])
    requires marks' == marks + [Dot(ok)] + (if (n + 1) % CountEvery == 0 then [Count(n + 1)] else [])
    ensures FilesSoFar(setup, files, n + 1, incorrect', marks')
  {
    GoldenStep(setup, files, n);
    RunStep(setup, files, n);
    ProgressStep(Verdicts(setup, files[..n]), ok);
  }

  /** `main`: picks the mode from the command line, lists the tests, runs
      them, and reports. */
  method RunSuite(fs: FileSystem, cwd: string, argv: seq<string>, parser: string -> Streams) returns (r: Result<Report, Crash>)
    ensures var setup := SetupIn(fs, cwd, ModeOf(argv), parser);
      && (r.Ok? <==> Runnable(setup))
      && (!fs.IsDir(TestDir(cwd)) ==> r == Err(MissingDirectory(TestDir(cwd))))
      && (r.Err? && fs.IsDir(TestDir(cwd)) ==>
            var files := GetFilesOnly(fs, TestDir(cwd)).value;
            exists i :: StopsAt(setup, files, i) && Err(r.error) == Verdict(setup, files[i]))
    ensures r.Ok? ==>
      var setup := SetupIn(fs, cwd, ModeOf(argv), parser);
      var files := GetFilesOnly(fs, TestDir(cwd)).value;
      && r.value.numTests == |files|
      && r.value.incorrect == Failing(setup, files)
      && r.value.marks == Progress(Verdicts(setup, files))
      && |r.value.incorrect| <= r.value.numTests
      && (r.value.closing == AllPassed <==> forall f :: f in files ==> Passed(setup, f))
      && (r.value.closing.FailedTests? ==>
            r.value.closing.names == r.value.incorrect && r.value.closing.count == |r.value.incorrect|)
    ensures r.Ok? ==> var files := GetFilesOnly(fs, TestDir(cwd)).value;
      (r.value.closing == AllPassed <==> forall f :: f in files ==> PassesOnCommandLine(fs, cwd, argv, parser, f))
  {
    var setup := SetupIn(fs, cwd, ModeOf(argv), parser);
    var listing := GetFilesOnly(fs, setup.testDir);
    if listing.Err? {
      return Err(listing.error);
    }
    var files := listing.value;
    var tally := RunFiles(setup, files);
    if tally.Err? {
      return Err(tally.error);
    }
    var incorrect := tally.value.incorrect;
    FailingInNameOrder(setup, files);
    FailingIffSomeFails(setup, files);
    forall f | f in files
      ensures Passed(setup, f) <==> PassesOnCommandLine(fs, cwd, argv, parser, f)
    {
      PassedOnCommandLine(fs, cwd, argv, parser, f);
    }
    return Ok(Report(tally.value.numTests, incorrect, tally.value.marks, ClosingFor(incorrect)));
  }

  /** Every test among `files` has both golden files. */
  predicate AllHaveGolden(setup: Setup, files: seq<string>) {
    forall i :: 0 <= i < |files| ==> HasGolden(setup, files[i])
  }

  /** A test with both golden files extends a prefix whose tests all have them. */
  lemma GoldenStep(setup: Setup, files: seq<string>, i: nat)
    requires i < |files| && AllHaveGolden(setup, files[..i]) && HasGolden(setup, files[i])
    ensures AllHaveGolden(setup, files[..i + 1])
  {
    var next := files[..i + 1];
    forall j | 0 <= j < |next|
      ensures HasGolden(setup, next[j])
    {
      if j < i {
        assert next[j] == files[..i][j];
      }
    }
  }

  /** Running one more test extends the failing names and the verdicts by
      that test's outcome. */
  lemma RunStep(setup: Setup, files: seq<string>, i: nat)
    requires i < |files|
    ensures Failing(setup, files[..i + 1]) ==
      Failing(setup, files[..i]) + (if Passed(setup, files[i]) then [] else [files[i]])
    ensures Verdicts(setup, files[..i + 1]) ==
      Verdicts(setup, files[..i]) + [Passed(setup, files[i])]
  {
    assert files[..i + 1][..i] == files[..i];
  }

  /** The failing names are collected in the order the files were sorted in,
      so sorting them again before printing changes nothing. */
  lemma FailingInNameOrder(setup: Setup, files: seq<string>)
    requires SortedBy(files, Self)
    ensures SortBy(Failing(setup, files), Self) == Failing(setup, files)
  {
    FailingIsKept(setup, files);
    KeepSorted(files, f => !Passed(setup, f), Self);
    SortSortedIsIdentity(Failing(setup, files));
  }

  /** Nothing is reported as failed exactly when every test passed. */
  lemma FailingIffSomeFails(setup: Setup, files: seq<string>)
    ensures |Failing(setup, files)| == 0 <==> forall f :: f in files ==> Passed(setup, f)
  {
    FailingIsKept(setup, files);
    var bad := Failing(setup, files);
    if |bad| == 0 {
      forall f | f in files
        ensures Passed(setup, f)
      {
        assert multiset(bad)[f] == 0;
        assert f in multiset(files);
      }
    } else {
      assert bad[0] in multiset(bad);
    }
  }
}

=== FILE: py_harness.dfy ===
/** The Python harness (main.py): every module directory under "cases" holds
    fixtures with optional ".outp" (expected standard output) and ".error"
    (expected standard error) companions. Each fixture is run once under the
    transparent policy (the exit status is ignored) and passes when both
    streams match their companions after trailing newlines are stripped. Two
    global counters number the tests and count the passes; they decide the
    closing message and the exit status. */
module PyHarness {
  import opened Env
  import opened Strings
  import opened Sorting

  /** The directory whose sub-directories are the test modules. */
  const CasesDir: string := "cases"

  /** Companion suffixes for expected standard output and standard error. */
  const OutSuffix: string := ".outp"
  const ErrSuffix: string := ".error"

  // ---------------------------------------------------------------------------
  // Normalisation
  // ---------------------------------------------------------------------------

  /** Removes every trailing newline: the result is the longest prefix of `s`
      that does not end in a newline, and only newlines were cut off. */
  function StripEndNl(s: string): (r: string)
    ensures r <= s
    ensures |r| == 0 || r[|r| - 1] != '\n'
    ensures forall i :: |r| <= i < |s| ==> s[i] == '\n'
    decreases |s|
  {
    if |s| > 0 && s[|s| - 1] == '\n' then StripEndNl(s[..|s| - 1]) else s
  }

  /** Unlike the Go harness's normalisation, stripping is idempotent. */
  lemma StripEndNlIdempotent(s: string)
    ensures StripEndNl(StripEndNl(s)) == StripEndNl(s)
  {
  }

  /** Appending a newline never changes the stripped text. */
  lemma StripEndNlIgnoresNewline(s: string)
    ensures StripEndNl(s + "\n") == StripEndNl(s)
  {
    assert (s + "\n")[..|s|] == s;
  }

  /** Text made only of newlines. */
  predicate AllNewlines(s: string) {
    forall i :: 0 <= i < |s| ==> s[i] == '\n'
  }

  /** Stripping leaves nothing exactly when the text is only newlines. */
  lemma StripEndNlEmptyIff(s: string)
    ensures StripEndNl(s) == "" <==> AllNewlines(s)
  {
  }

  // ---------------------------------------------------------------------------
  // Discovery
  // ---------------------------------------------------------------------------

  /** A listing entry of `module` that is a test case: a regular file whose
      name contains neither ".outp" nor ".error". */
  predicate IsCase(fs: FileSystem, moduleDir: string, f: string) {
    fs.IsFile(Join(moduleDir, f)) && !Contains(f, OutSuffix) && !Contains(f, ErrSuffix)
  }

  /** The case paths of one module, in listing order: no more than there are
      entries, and each a regular file. */
  function ModuleCases(fs: FileSystem, moduleDir: string, entries: seq<string>): (r: seq<string>)
    ensures |r| <= |entries|
    ensures forall p :: p in r ==> fs.IsFile(p)
    decreases |entries|
  {
    if |entries| == 0 then []
    else if IsCase(fs, moduleDir, entries[0]) then [Join(moduleDir, entries[0])] + ModuleCases(fs, moduleDir, entries[1..])
    else ModuleCases(fs, moduleDir, entries[1..])
  }

  /** The case list keeps every qualifying entry and nothing else: no path of
      a file whose name contains ".outp" or ".error", and no directory. */
  lemma {:induction false} ModuleCasesMembers(fs: FileSystem, moduleDir: string, entries: seq<string>)
    ensures forall f :: f in entries && IsCase(fs, moduleDir, f) ==> Join(moduleDir, f) in ModuleCases(fs, moduleDir, entries)
    ensures forall p :: p in ModuleCases(fs, moduleDir, entries) ==>
      exists f :: f in entries && IsCase(fs, moduleDir, f) && p == Join(moduleDir, f)
    decreases |entries|
  {
    if |entries| > 0 {
      ModuleCasesMembers(fs, moduleDir, entries[1..]);
      assert forall f :: f in entries ==> f == entries[0] || f in entries[1..];
    }
  }

  /** Listing the cases of two runs of entries one after the other lists the
      cases of each in turn: the cases keep the listing order. */
  lemma {:induction false} ModuleCasesAppend(fs: FileSystem, moduleDir: string, a: seq<string>, b: seq<string>)
    ensures ModuleCases(fs, moduleDir, a + b) == ModuleCases(fs, moduleDir, a) + ModuleCases(fs, moduleDir, b)
    decreases |a|
  {
    if |a| == 0 {
      assert a + b == b;
    } else {
      assert (a + b)[0] == a[0] && (a + b)[1..] == a[1..] + b;
      ModuleCasesAppend(fs, moduleDir, a[1..], b);
      var head := if IsCase(fs, moduleDir, a[0]) then [Join(moduleDir, a[0])] else [];
      ConcatAssoc(head, ModuleCases(fs, moduleDir, a[1..]), ModuleCases(fs, moduleDir, b));
    }
  }

  /** Each qualifying entry gives its case path as often as the listing holds
      the entry, and any other entry gives none: one case per entry. */
  lemma {:induction false} ModuleCasesCount(fs: FileSystem, moduleDir: string, entries: seq<string>)
    ensures forall e :: (multiset(ModuleCases(fs, moduleDir, entries))[Join(moduleDir, e)]
                         == if IsCase(fs, moduleDir, e) then multiset(entries)[e] else 0)
    decreases |entries|
  {
    if |entries| > 0 {
      var head := entries[0];
      ModuleCasesCount(fs, moduleDir, entries[1..]);
      MultisetOfTail(entries);
      var first := if IsCase(fs, moduleDir, head) then [Join(moduleDir, head)] else [];
      assert multiset(ModuleCases(fs, moduleDir, entries)) == multiset(first) + multiset(ModuleCases(fs, moduleDir, entries[1..]));
      forall e
        ensures multiset(ModuleCases(fs, moduleDir, entries))[Join(moduleDir, e)]
          == if IsCase(fs, moduleDir, e) then multiset(entries)[e] else 0
      {
        if Join(moduleDir, head) == Join(moduleDir, e) {
          JoinInjective(moduleDir, head, e);
        }
      }
    }
  }

  /** The paths of the entries of `parent` that are themselves directories:
      every such path, and nothing else. */
  function SubDirs(fs: FileSystem, parent: string, entries: seq<string>): (r: seq<string>)
    ensures forall m :: m in r ==> fs.IsDir(m)
    ensures forall e :: e in entries && fs.IsDir(Join(parent, e)) ==> Join(parent, e) in r
    ensures forall m :: m in r ==> exists e :: e in entries && m == Join(parent, e)
    decreases |entries|
  {
    if |entries| == 0 then []
    else if fs.IsDir(Join(parent, entries[0])) then [Join(parent, entries[0])] + SubDirs(fs, parent, entries[1..])
    else SubDirs(fs, parent, entries[1..])
  }

  /** Directories of two runs of entries one after the other come in turn:
      the directories keep the listing order. */
  lemma {:induction false} SubDirsAppend(fs: FileSystem, parent: string, a: seq<string>, b: seq<string>)
    ensures SubDirs(fs, parent, a + b) == SubDirs(fs, parent, a) + SubDirs(fs, parent, b)
    decreases |a|
  {
    if |a| == 0 {
      assert a + b == b;
    } else {
      assert (a + b)[0] == a[0] && (a + b)[1..] == a[1..] + b;
      SubDirsAppend(fs, parent, a[1..], b);
      var head := if fs.IsDir(Join(parent, a[0])) then [Join(parent, a[0])] else [];
      ConcatAssoc(head, SubDirs(fs, parent, a[1..]), SubDirs(fs, parent, b));
    }
  }

  /** Each entry that is a directory gives its path as often as the listing
      holds the entry, and any other entry gives none. */
  lemma {:induction false} SubDirsCount(fs: FileSystem, parent: string, entries: seq<string>)
    ensures forall e :: (multiset(SubDirs(fs, parent, entries))[Join(parent, e)]
                         == if fs.IsDir(Join(parent, e)) then multiset(entries)[e] else 0)
    decreases |entries|
  {
    if |entries| > 0 {
      var head := entries[0];
      SubDirsCount(fs, parent, entries[1..]);
      MultisetOfTail(entries);
      var first := if fs.IsDir(Join(parent, head)) then [Join(parent, head)] else [];
      assert multiset(SubDirs(fs, parent, entries)) == multiset(first) + multiset(SubDirs(fs, parent, entries[1..]));
      forall e
        ensures multiset(SubDirs(fs, parent, entries))[Join(parent, e)]
          == if fs.IsDir(Join(parent, e)) then multiset(entries)[e] else 0
      {
        if Join(parent, head) == Join(parent, e) {
          JoinInjective(parent, head, e);
        }
      }
    }
  }

  /** Why main.py stops with an uncaught exception. */
  datatype PyError = CasesDirMissing | NoSuchTest(index: int)

  /** The module directories under "cases", in listing order; listing a
      missing "cases" raises. Each entry of "cases" that is a directory is a
      module as often as the listing holds it, and nothing else is. */
  function Modules(fs: FileSystem): (r: Result<seq<string>, PyError>)
    ensures r.Ok? <==> fs.IsDir(CasesDir)
    ensures r.Ok? ==> forall m :: m in r.value ==> fs.IsDir(m)
    ensures r.Ok? ==> forall e :: e in fs.dirs[CasesDir] && fs.IsDir(Join(CasesDir, e)) ==> Join(CasesDir, e) in r.value
    ensures r.Ok? ==> forall m :: m in r.value ==> exists e :: e in fs.dirs[CasesDir] && m == Join(CasesDir, e)
    ensures r.Ok? ==> forall e :: (multiset(r.value)[Join(CasesDir, e)]
                                   == if fs.IsDir(Join(CasesDir, e)) then multiset(fs.dirs[CasesDir])[e] else 0)
  {
    if !fs.IsDir(CasesDir) then Err(CasesDirMissing)
    else
      SubDirsCount(fs, CasesDir, fs.dirs[CasesDir]);
      Ok(SubDirs(fs, CasesDir, fs.dirs[CasesDir]))
  }

  /** Every case of the given modules, module after module: the list that
      `loadAllTests` builds and the order in which `runTests` numbers them.
      Every test is a regular file. */
  function AllCases(fs: FileSystem, modules: seq<string>): (r: seq<string>)
    requires forall m :: m in modules ==> fs.IsDir(m)
    ensures forall p :: p in r ==> fs.IsFile(p)
    decreases |modules|
  {
    if |modules| == 0 then []
    else
      var last := modules[|modules| - 1];
      assert last in modules && fs.IsDir(last);
      assert forall m :: m in modules[..|modules| - 1] ==> m in modules;
      AllCases(fs, modules[..|modules| - 1]) + ModuleCases(fs, last, fs.dirs[last])
  }

  // ---------------------------------------------------------------------------
  // One test
  // ---------------------------------------------------------------------------

  /** The two global counters: the number of the last test run (-1 before
      the first) and the number of tests passed. */
  datatype Counters = Counters(testNo: int, totalPassed: nat)

  /** The counters when main.py starts. */
  const Start: Counters := Counters(-1, 0)

  /** The expected text of one stream: the companion file, stripped, or the
      empty string when there is no companion. Either way it never ends in a
      newline. */
  function Companion(fs: FileSystem, testfile: string, suffix: string): (r: string)
    ensures !fs.IsFile(testfile + suffix) ==> r == ""
    ensures fs.IsFile(testfile + suffix) ==> r == StripEndNl(fs.files[testfile + suffix])
    ensures |r| == 0 || r[|r| - 1] != '\n'
  {
    if fs.IsFile(testfile + suffix) then StripEndNl(fs.files[testfile + suffix]) else ""
  }

  /** Both captured streams, stripped, equal their expected texts. */
  predicate Matches(fs: FileSystem, testfile: string, got: Streams) {
    StripEndNl(got.stdout) == Companion(fs, testfile, OutSuffix)
    && StripEndNl(got.stderr) == Companion(fs, testfile, ErrSuffix)
  }

  /** The result of `runTest`: its verdict and the counters after it. */
  datatype TestRun = TestRun(passed: bool, counters: Counters)

  /** `runTest`: numbers the test, judges it on both streams, and counts it
      as passed exactly when it passed. A case without companions passes
      exactly when it prints nothing but newlines, and extra trailing
      newlines on either stream never change the verdict. */
  function RunTest(c: Counters, fs: FileSystem, testfile: string, got: Streams): (r: TestRun)
    ensures r.counters.testNo == c.testNo + 1
    ensures r.passed <==> Matches(fs, testfile, got)
    ensures r.counters.totalPassed == c.totalPassed + (if r.passed then 1 else 0)
    ensures !fs.IsFile(testfile + OutSuffix) && !fs.IsFile(testfile + ErrSuffix) ==>
      (r.passed <==> AllNewlines(got.stdout) && AllNewlines(got.stderr))
    ensures r.passed <==> Matches(fs, testfile, Streams(got.stdout + "\n", got.stderr + "\n"))
  {
    StripEndNlEmptyIff(got.stdout);
    StripEndNlEmptyIff(got.stderr);
    StripEndNlIgnoresNewline(got.stdout);
    StripEndNlIgnoresNewline(got.stderr);
    var passed := Matches(fs, testfile, got);
    TestRun(passed, Counters(c.testNo + 1, if passed then c.totalPassed + 1 else c.totalPassed))
  }

  // ---------------------------------------------------------------------------
  // Modules
  // ---------------------------------------------------------------------------

  /** The number of cases that pass. */
  function CountMatching(fs: FileSystem, cases: seq<string>, binary: string -> Streams): (n: nat)
    ensures n <= |cases|
    decreases |cases|
  {
    if |cases| == 0 then 0
    else
      var last := cases[|cases| - 1];
      CountMatching(fs, cases[..|cases| - 1], binary) + (if Matches(fs, last, binary(last)) then 1 else 0)
  }

  lemma {:induction false} CountMatchingAppend(fs: FileSystem, a: seq<string>, b: seq<string>, binary: string -> Streams)
    ensures CountMatching(fs, a + b, binary) == CountMatching(fs, a, binary) + CountMatching(fs, b, binary)
    decreases |b|
  {
    if |b| == 0 {
      assert a + b == a;
    } else {
      assert (a + b)[..|a + b| - 1] == a + b[..|b| - 1];
      CountMatchingAppend(fs, a, b[..|b| - 1], binary);
    }
  }

  /** All cases pass exactly when the count of passing cases is the count of
      cases. */
  lemma {:induction false} CountMatchingAll(fs: FileSystem, cases: seq<string>, binary: string -> Streams)
    ensures CountMatching(fs, cases, binary) == |cases|
        <==> forall i :: 0 <= i < |cases| ==> Matches(fs, cases[i], binary(cases[i]))
    decreases |cases|
  {
    if |cases| > 0 {
      var init := cases[..|cases| - 1];
      CountMatchingAll(fs, init, binary);
      assert forall i :: 0 <= i < |init| ==> init[i] == cases[i];
    }
  }

  /** What `runModule` reports: passes, cases run, and the numbers of the
      failed tests. */
  datatype ModuleReport = ModuleReport(passedIn: nat, totalIn: nat, failed: seq<int>)

  /** Numbering the cases from `first + 1` on, `failed` holds exactly the
      numbers of the cases that fail. */
  ghost predicate NumberedFailures(failed: seq<int>, fs: FileSystem, cases: seq<string>, binary: string -> Streams, first: int) {
    forall k :: k in failed <==>
      first < k <= first + |cases| && !Matches(fs, cases[k - first - 1], binary(cases[k - first - 1]))
  }

  /** The state of `runModule` after its first `n` cases: the passes counted,
      the failures numbered in increasing order, and the counters advanced. */
  ghost predicate ModuleSoFar(c: Counters, fs: FileSystem, cases: seq<string>, binary: string -> Streams,
                              n: nat, passedIn: nat, failed: seq<int>, after: Counters)
    requires n <= |cases|
  {
    && passedIn == CountMatching(fs, cases[..n], binary)
    && |failed| == n - passedIn
    && after == Counters(c.testNo + n, c.totalPassed + passedIn)
    && (forall i, j :: 0 <= i < j < |failed| ==> failed[i] < failed[j])
    && (forall i :: 0 <= i < |failed| ==> failed[i] <= after.testNo)
    && NumberedFailures(failed, fs, cases[..n], binary, c.testNo)
  }

  /** Running the next case moves the state of `runModule` on by one case:
      a pass is counted, a failure is numbered. */
  lemma ModuleStep(c: Counters, fs: FileSystem, cases: seq<string>, binary: string -> Streams,
                   n: nat, passedIn: nat, failed: seq<int>, after: Counters,
                   ok: bool, passedIn': nat, failed': seq<int>, after': Counters)
    requires n < |cases| && ModuleSoFar(c, fs, cases, binary, n, passedIn, failed, after)
    requires ok <==> Matches(fs, cases[n], binary(cases[n]))
    requires passedIn' == passedIn + (if ok then 1 else 0)
    requires after' == Counters(after.testNo + 1, after.totalPassed + (if ok then 1 else 0))
    requires failed' == failed + (if ok then [] else [after'.testNo])
    ensures ModuleSoFar(c, fs, cases, binary, n + 1, passedIn', failed', after')
  {
    assert after'.testNo == c.testNo + n + 1;
    NumberedStep(failed, failed', fs, cases, binary, c.testNo, n, ok);
    CountStep(fs, cases, binary, n);
    IncreasingStep(failed, failed', after'.testNo, ok);
  }

  /** Running the next case adds its number to the failures exactly when it
      fails. */
  lemma NumberedStep(failed: seq<int>, failed': seq<int>, fs: FileSystem, cases: seq<string>, binary: string -> Streams,
                      first: int, n: nat, ok: bool)
    requires n < |cases| && NumberedFailures(failed, fs, cases[..n], binary, first)
    requires forall i :: 0 <= i < |failed| ==> failed[i] <= first + n
    requires ok <==> Matches(fs, cases[n], binary(cases[n]))
    requires failed' == failed + (if ok then [] else [first + n + 1])
    ensures NumberedFailures(failed', fs, cases[..n + 1], binary, first)
  {
    forall k
      ensures k in failed' <==>
        first < k <= first + n + 1 && !Matches(fs, cases[..n + 1][k - first - 1], binary(cases[..n + 1][k - first - 1]))
    {
      if first < k <= first + n {
        assert cases[..n + 1][k - first - 1] == cases[..n][k - first - 1];
      }
    }
  }

  /** One more case adds one to the count exactly when it passes. */
  lemma CountStep(fs: FileSystem, cases: seq<string>, binary: string -> Streams, n: nat)
    requires n < |cases|
    ensures CountMatching(fs, cases[..n + 1], binary)
        == CountMatching(fs, cases[..n], binary) + (if Matches(fs, cases[n], binary(cases[n])) then 1 else 0)
  {
    assert cases[..n + 1][..n] == cases[..n];
  }

  /** Appending a number above all of an increasing sequence keeps it
      increasing and bounded by that number. */
  lemma IncreasingStep(failed: seq<int>, r: seq<int>, next: int, ok: bool)
    requires forall i, j :: 0 <= i < j < |failed| ==> failed[i] < failed[j]
    requires forall i :: 0 <= i < |failed| ==> failed[i] < next
    requires r == failed + (if ok then [] else [next])
    ensures forall i, j :: 0 <= i < j < |r| ==> r[i] < r[j]
    ensures forall i :: 0 <= i < |r| ==> r[i] <= next
  {
  }

  /** `runModule`: runs the module's cases in order, counting passes and
      recording the global number of every failed test. The numbers recorded
      are strictly increasing, and they are exactly the numbers of this
      module's tests that fail. */
  method RunModule(c: Counters, fs: FileSystem, cases: seq<string>, binary: string -> Streams)
    returns (after: Counters, report: ModuleReport)
    ensures report.totalIn == |cases| && report.passedIn <= report.totalIn
    ensures report.passedIn == CountMatching(fs, cases, binary)
    ensures |report.failed| == report.totalIn - report.passedIn
    ensures after.testNo == c.testNo + |cases|
    ensures after.totalPassed == c.totalPassed + report.passedIn
    ensures forall i, j :: 0 <= i < j < |report.failed| ==> report.failed[i] < report.failed[j]
    ensures NumberedFailures(report.failed, fs, cases, binary, c.testNo)
  {
    after := c;
    var passedIn, totalIn := 0, 0;
    var failed: seq<int> := [];
    while totalIn < |cases|
      invariant 0 <= totalIn <= |cases|
      invariant ModuleSoFar(c, fs, cases, binary, totalIn, passedIn, failed, after)
    {
      var testfile := cases[totalIn];
      ghost var before, passedBefore, failedBefore := after, passedIn, failed;
      var run := RunTest(after, fs, testfile, binary(testfile));
      totalIn := totalIn + 1;
      after := run.counters;
      if run.passed {
        passedIn := passedIn + 1;
      } else {
        failed := failed + [after.testNo];
      }
      ModuleStep(c, fs, cases, binary, totalIn - 1, passedBefore, failedBefore, before,
                 run.passed, passedIn, failed, after);
    }
    assert cases[..totalIn] == cases;
    report := ModuleReport(passedIn, totalIn, failed);
  }

  // ---------------------------------------------------------------------------
  // Closing message and exit status
  // ---------------------------------------------------------------------------

  /** The message `runTests` ends with. */
  datatype Message = PassedEverything | FailureSummary(passed: int, failed: int, total: int)

  /** The closing message as main.py:207 chooses it: it compares the number
      of the last test with the number of passes, which is off by one. */
  function ClosingAsWritten(c: Counters): (m: Message)
    ensures m.FailureSummary? ==> m.passed == c.totalPassed && m.total == c.testNo + 1 && m.passed + m.failed == m.total
  {
    if c.testNo != c.totalPassed then FailureSummary(c.totalPassed, c.testNo - c.totalPassed + 1, c.testNo + 1)
    else PassedEverything
  }

  /** After `n` tests of which `p` passed, the message as written claims that
      everything passed exactly when one test failed. */
  lemma ClosingAsWrittenMisreports(n: nat, p: nat)
    requires p <= n
    ensures ClosingAsWritten(Counters(n - 1, p)).PassedEverything? <==> p == n - 1
    ensures ClosingAsWritten(Counters(0, 0)) == PassedEverything
    ensures ClosingAsWritten(Counters(0, 1)) == FailureSummary(1, 0, 1)
  {
  }

  /** The closing message with the comparison main.py:248 uses for the exit
      status: the pass count against the number of tests run. */
  function Closing(c: Counters): (m: Message)
    ensures m.FailureSummary? ==> m.passed == c.totalPassed && m.total == c.testNo + 1 && m.passed + m.failed == m.total
  {
    if c.totalPassed != c.testNo + 1 then FailureSummary(c.totalPassed, c.testNo - c.totalPassed + 1, c.testNo + 1)
    else PassedEverything
  }

  /** The exit status main.py ends with: 0 exactly when the corrected
      closing message says that everything passed. */
  function ExitCode(c: Counters): (code: int)
    ensures code == 0 || code == 1
    ensures code == 0 <==> Closing(c) == PassedEverything
  {
    if c.totalPassed != c.testNo + 1 then 1 else 0
  }

  /** After `n` tests of which `p` passed, the corrected message claims that
      everything passed, and the exit status is zero, exactly when all `n`
      passed; otherwise it reports `n - p` failures out of `n`. */
  lemma ClosingIsAccurate(n: nat, p: nat)
    requires p <= n
    ensures Closing(Counters(n - 1, p)).PassedEverything? <==> p == n
    ensures ExitCode(Counters(n - 1, p)) == 0 <==> p == n
    ensures p < n ==> Closing(Counters(n - 1, p)) == FailureSummary(p, n - p, n)
  {
  }

  // ---------------------------------------------------------------------------
  // Whole runs
  // ---------------------------------------------------------------------------

  /** What a full run (`runTests`) ends with: the counters, every module's
      report, and the closing message it prints. */
  datatype FullRun = FullRun(counters: Counters, reports: seq<ModuleReport>, printed: Message)

  /** The failed test numbers of all module reports, module after module. */
  function AllFailed(reports: seq<ModuleReport>): seq<int>
    decreases |reports|
  {
    if |reports| == 0 then [] else AllFailed(reports[..|reports| - 1]) + reports[|reports| - 1].failed
  }

  /** The failed numbers are exactly the positions of the failing tests. */
  ghost predicate FailedExactly(failed: seq<int>, fs: FileSystem, all: seq<string>, binary: string -> Streams) {
    forall k :: k in failed <==> 0 <= k < |all| && !Matches(fs, all[k], binary(all[k]))
  }

  /** Every test passes. */
  predicate AllMatch(fs: FileSystem, all: seq<string>, binary: string -> Streams) {
    forall k :: 0 <= k < |all| ==> Matches(fs, all[k], binary(all[k]))
  }

  /** Appending one module's failures, numbered after the earlier tests,
      keeps the failure list exact. */
  lemma FailedExactlyAppend(failed: seq<int>, more: seq<int>, fs: FileSystem, before: seq<string>,
                            cases: seq<string>, binary: string -> Streams, first: int, last: int)
    requires FailedExactly(failed, fs, before, binary)
    requires first == |before| - 1 && last == first + |cases|
    requires NumberedFailures(more, fs, cases, binary, first)
    ensures FailedExactly(failed + more, fs, before + cases, binary)
  {
    var all := before + cases;
    forall k
      ensures k in failed + more <==> 0 <= k < |all| && !Matches(fs, all[k], binary(all[k]))
    {
      if |before| <= k < |all| {
        assert all[k] == cases[k - |before|];
      } else if 0 <= k < |before| {
        assert all[k] == before[k];
      }
    }
  }

  /** The module loop of `runTests`: every module in the given order. Tests
      are numbered in the order `loadAllTests` lists them, the counters count
      them and their passes, and the failed numbers are exactly the failing
      tests. */
  method RunModules(fs: FileSystem, modules: seq<string>, binary: string -> Streams)
    returns (c: Counters, reports: seq<ModuleReport>)
    requires forall m :: m in modules ==> fs.IsDir(m)
    ensures c == Counters(|AllCases(fs, modules)| - 1, CountMatching(fs, AllCases(fs, modules), binary))
    ensures FailedExactly(AllFailed(reports), fs, AllCases(fs, modules), binary)
  {
    c := Start;
    reports := [];
    ghost var seen: seq<string> := [];
    var m := 0;
    while m < |modules|
      invariant 0 <= m <= |modules|
      invariant forall d :: d in modules[..m] ==> d in modules
      invariant seen == AllCases(fs, modules[..m])
      invariant c == Counters(|seen| - 1, CountMatching(fs, seen, binary))
      invariant FailedExactly(AllFailed(reports), fs, seen, binary)
    {
      var dir := modules[m];
      assert dir in modules;
      var cases := ModuleCases(fs, dir, fs.dirs[dir]);
      assert modules[..m + 1][..m] == modules[..m];
      assert AllCases(fs, modules[..m + 1]) == seen + cases;
      CountMatchingAppend(fs, seen, cases, binary);
      var c', report := RunModule(c, fs, cases, binary);
      FailedExactlyAppend(AllFailed(reports), report.failed, fs, seen, cases, binary, c.testNo, c'.testNo);
      assert (reports + [report])[..|reports|] == reports;
      c := c';
      reports := reports + [report];
      seen := seen + cases;
      m := m + 1;
    }
    assert modules[..m] == modules;
  }

  /** `runTests`: lists the modules, runs them, and prints the closing
      message as main.py:207 chooses it, which claims that everything passed
      exactly when all tests but one passed. The corrected message and the
      exit status report failure exactly when some test failed. */
  method RunTests(fs: FileSystem, binary: string -> Streams) returns (r: Result<FullRun, PyError>)
    ensures r.Ok? <==> fs.IsDir(CasesDir)
    ensures r.Ok? ==> var all := AllCases(fs, Modules(fs).value);
      r.value.counters == Counters(|all| - 1, CountMatching(fs, all, binary))
    ensures r.Ok? ==> FailedExactly(AllFailed(r.value.reports), fs, AllCases(fs, Modules(fs).value), binary)
    ensures r.Ok? ==> var all := AllCases(fs, Modules(fs).value);
      (r.value.printed == PassedEverything <==> CountMatching(fs, all, binary) == |all| - 1)
    ensures r.Ok? ==> (Closing(r.value.counters) == PassedEverything <==> AllMatch(fs, AllCases(fs, Modules(fs).value), binary))
    ensures r.Ok? ==> (ExitCode(r.value.counters) == 1 <==> !AllMatch(fs, AllCases(fs, Modules(fs).value), binary))
  {
    var mods := Modules(fs);
    if mods.Err? {
      return Err(mods.error);
    }
    var c, reports := RunModules(fs, mods.value, binary);
    var all := AllCases(fs, mods.value);
    CountMatchingAll(fs, all, binary);
    ClosingIsAccurate(|all|, c.totalPassed);
    return Ok(FullRun(c, reports, ClosingAsWritten(c)));
  }

  /** What running one numbered test (`python main.py binary n`) ends with. */
  datatype SingleRun = SingleRun(passed: bool, exitCode: int)

  /** `loadAllTests` and one `runTest` on `tests[index]`, with Python's
      indexing: a negative index counts from the end, and an index outside
      the list raises. The run passes exactly when that test matches, and the
      exit status is 1 exactly when it does not. */
  function RunSingle(fs: FileSystem, index: int, binary: string -> Streams): (r: Result<SingleRun, PyError>)
    ensures fs.IsDir(CasesDir) && 0 <= index < |AllCases(fs, Modules(fs).value)| ==>
      var t := AllCases(fs, Modules(fs).value)[index];
      r.Ok? && (r.value.passed <==> Matches(fs, t, binary(t)))
    ensures fs.IsDir(CasesDir) && -|AllCases(fs, Modules(fs).value)| <= index < 0 ==>
      var tests := AllCases(fs, Modules(fs).value);
      var t := tests[|tests| + index];
      r.Ok? && (r.value.passed <==> Matches(fs, t, binary(t)))
    ensures fs.IsDir(CasesDir) ==> var tests := AllCases(fs, Modules(fs).value);
      (index < -|tests| || |tests| <= index <==> r == Err(NoSuchTest(index)))
    ensures r.Ok? ==> (r.value.exitCode == 1 <==> !r.value.passed)
    ensures !fs.IsDir(CasesDir) ==> r == Err(CasesDirMissing)
  {
    var modules :- Modules(fs);
    var tests := AllCases(fs, modules);
    if index < -|tests| || index >= |tests| then Err(NoSuchTest(index))
    else
      var t := if index < 0 then tests[|tests| + index] else tests[index];
      var run := RunTest(Start, fs, t, binary(t));
      Ok(SingleRun(run.passed, ExitCode(run.counters)))
  }
}

=== FILE: sorting.dfy ===
/** Sorting by a string key. Go's `sort.Sort` on test cases (ordered by their
    display name) and Python's `sorted` on file names both promise a
    permutation of the input that is non-decreasing in the key; this module
    defines that promise once and gives one sort that keeps it. */
module Sorting {
  import opened Strings

  /** Every earlier element's key is at most every later element's key. */
  predicate SortedBy<T>(s: seq<T>, key: T -> string) {
    forall i, j :: 0 <= i < j < |s| ==> LexLe(key(s[i]), key(s[j]))
  }

  /** The key that sorts strings by themselves. */
  function Self(x: string): string {
    x
  }

  /** Every element of `s` has a key of at least `lo`. */
  predicate AllAtLeast<T>(lo: string, s: seq<T>, key: T -> string) {
    forall j :: 0 <= j < |s| ==> LexLe(lo, key(s[j]))
  }

  /** Inserts `x` into the sorted `s`, before the first element whose key is
      at least `x`'s key. Inserting each element in front of its equals is
      what makes `SortBy` keep equal keys in their input order. */
  function InsertBy<T>(x: T, s: seq<T>, key: T -> string): (r: seq<T>)
    requires SortedBy(s, key)
    ensures SortedBy(r, key)
    ensures multiset(r) == multiset(s) + multiset{x}
    decreases |s|
  {
    if |s| == 0 then [x]
    else if LexLe(key(x), key(s[0])) then
      SortedHeadBelowAll(x, s, key);
      PrependKeepsSorted(x, s, key);
      [x] + s
    else
      LexLeTotal(key(x), key(s[0]));
      var rest := InsertBy(x, s[1..], key);
      assert s == [s[0]] + s[1..];
      LowerBoundSurvivesInsert(key(s[0]), x, s[1..], rest, key);
      PrependKeepsSorted(s[0], rest, key);
      [s[0]] + rest
  }

  /** An element whose key is at most the head of a sorted sequence is at
      most every element of it. */
  lemma SortedHeadBelowAll<T>(x: T, s: seq<T>, key: T -> string)
    requires SortedBy(s, key) && |s| > 0
    requires LexLe(key(x), key(s[0]))
    ensures AllAtLeast(key(x), s, key)
  {
    forall j | 0 <= j < |s|
      ensures LexLe(key(x), key(s[j]))
    {
      if j > 0 {
        LexLeTransitive(key(x), key(s[0]), key(s[j]));
      }
    }
  }

  /** A lower bound of a sequence and of `x` is a lower bound of any
      rearrangement of the sequence with `x` added. */
  lemma LowerBoundSurvivesInsert<T>(lo: string, x: T, s: seq<T>, r: seq<T>, key: T -> string)
    requires SortedBy([x], key) && LexLe(lo, key(x))
    requires forall j :: 0 <= j < |s| ==> LexLe(lo, key(s[j]))
    requires multiset(r) == multiset(s) + multiset{x}
    ensures AllAtLeast(lo, r, key)
  {
    forall j | 0 <= j < |r|
      ensures LexLe(lo, key(r[j]))
    {
      assert r[j] in multiset(r);
      if r[j] != x {
        assert r[j] in multiset(s);
        var k :| 0 <= k < |s| && s[k] == r[j];
      }
    }
  }

  /** Putting an element in front of a sorted sequence whose keys are all at
      least its own keeps the sequence sorted. */
  lemma PrependKeepsSorted<T>(x: T, s: seq<T>, key: T -> string)
    requires SortedBy(s, key)
    requires AllAtLeast(key(x), s, key)
    ensures SortedBy([x] + s, key)
  {
    var r := [x] + s;
    forall i, j | 0 <= i < j < |r|
      ensures LexLe(key(r[i]), key(r[j]))
    {
      assert r[j] == s[j - 1];
      if i > 0 {
        assert r[i] == s[i - 1];
      }
    }
  }

  /** Insertion sort: a permutation of `s` ordered by `key`. */
  function SortBy<T>(s: seq<T>, key: T -> string): (r: seq<T>)
    ensures SortedBy(r, key)
    ensures multiset(r) == multiset(s)
    ensures |r| == |s|
    decreases |s|
  {
    if |s| == 0 then []
    else
      assert s == [s[0]] + s[1..];
      InsertBy(s[0], SortBy(s[1..], key), key)
  }

  /** The head of a sorted sequence of strings is at most each of its strings. */
  lemma SortedHeadIsLeast(a: seq<string>, y: string)
    requires SortedBy(a, Self)
    requires y in multiset(a)
    ensures LexLe(a[0], y)
  {
    var i :| 0 <= i < |a| && a[i] == y;
    if i == 0 {
      LexLeReflexive(y);
    } else {
      assert LexLe(Self(a[0]), Self(a[i]));
    }
  }

  /** Strings have only one sorted arrangement: two sorted sequences holding
      the same strings are equal. */
  lemma {:induction false} SortedStringsUnique(a: seq<string>, b: seq<string>)
    requires SortedBy(a, Self) && SortedBy(b, Self)
    requires multiset(a) == multiset(b)
    ensures a == b
    decreases |a|
  {
    assert |a| == |multiset(a)| == |multiset(b)| == |b|;
    if |a| > 0 {
      SortedHeadsAgree(a, b);
      MultisetOfTail(a);
      MultisetOfTail(b);
      SortedTail(a, Self);
      SortedTail(b, Self);
      SortedStringsUnique(a[1..], b[1..]);
      SameHeadAndTail(a, b);
    }
  }

  /** Two sorted sequences of the same strings start with the same string. */
  lemma SortedHeadsAgree(a: seq<string>, b: seq<string>)
    requires SortedBy(a, Self) && SortedBy(b, Self)
    requires multiset(a) == multiset(b) && |a| > 0 && |b| > 0
    ensures a[0] == b[0]
  {
    assert a[0] in a && b[0] in b;
    SortedHeadIsLeast(a, b[0]);
    SortedHeadIsLeast(b, a[0]);
    LexLeAntisymmetric(a[0], b[0]);
  }

  /** Sequences with the same head and the same tail are equal. */
  lemma SameHeadAndTail<T>(a: seq<T>, b: seq<T>)
    requires |a| > 0 && |b| > 0 && a[0] == b[0] && a[1..] == b[1..]
    ensures a == b
  {
    assert a == [a[0]] + a[1..];
    assert b == [b[0]] + b[1..];
  }

  /** Dropping the head of a sequence drops one copy of it from its multiset. */
  lemma MultisetOfTail<T>(s: seq<T>)
    requires |s| > 0
    ensures multiset(s[1..]) == multiset(s) - multiset{s[0]}
  {
    assert s == [s[0]] + s[1..];
  }

  /** The tail of a sorted sequence is sorted. */
  lemma SortedTail<T>(s: seq<T>, key: T -> string)
    requires |s| > 0 && SortedBy(s, key)
    ensures SortedBy(s[1..], key)
  {
    var t := s[1..];
    forall i, j | 0 <= i < j < |t|
      ensures LexLe(key(t[i]), key(t[j]))
    {
      assert t[i] == s[i + 1] && t[j] == s[j + 1];
    }
  }

  /** Sorting a sequence that is already sorted changes nothing. */
  lemma SortSortedIsIdentity(s: seq<string>)
    requires SortedBy(s, Self)
    ensures SortBy(s, Self) == s
  {
    SortedStringsUnique(SortBy(s, Self), s);
  }

  /** The elements of `s` that satisfy `p`, in their original order: Python's
      `[x for x in s if p(x)]`. Written from the end so that a loop that
      appends can keep it as its invariant. */
  function Keep<T(!new)>(s: seq<T>, p: T -> bool): (r: seq<T>)
    ensures |r| <= |s|
    ensures forall x {:trigger multiset(r)[x]} :: multiset(r)[x] == if p(x) then multiset(s)[x] else 0
    decreases |s|
  {
    if |s| == 0 then []
    else
      var n := |s|;
      assert s == s[..n - 1] + [s[n - 1]];
      Keep(s[..n - 1], p) + (if p(s[n - 1]) then [s[n - 1]] else [])
  }

  /** Filtering a concatenation filters each part: the kept elements stay in
      their original order. */
  lemma {:induction false} KeepAppend<T(!new)>(a: seq<T>, b: seq<T>, p: T -> bool)
    ensures Keep(a + b, p) == Keep(a, p) + Keep(b, p)
    decreases |b|
  {
    if |b| == 0 {
      assert a + b == a;
    } else {
      var n := |b|;
      assert (a + b)[..|a + b| - 1] == a + b[..n - 1];
      assert (a + b)[|a + b| - 1] == b[n - 1];
      KeepAppend(a, b[..n - 1], p);
    }
  }

  /** Keeping elements in order keeps a sorted sequence sorted. */
  lemma {:induction false} KeepSorted<T(!new)>(s: seq<T>, p: T -> bool, key: T -> string)
    requires SortedBy(s, key)
    ensures SortedBy(Keep(s, p), key)
    decreases |s|
  {
    if |s| > 0 {
      var n := |s|;
      var front := s[..n - 1];
      assert SortedBy(front, key) by {
        forall i, j | 0 <= i < j < |front|
          ensures LexLe(key(front[i]), key(front[j]))
        {
          assert front[i] == s[i] && front[j] == s[j];
        }
      }
      KeepSorted(front, p, key);
      if p(s[n - 1]) {
        var k := Keep(front, p);
        forall j | 0 <= j < |k|
          ensures LexLe(key(k[j]), key(s[n - 1]))
        {
          assert k[j] in multiset(k);
          assert k[j] in multiset(front);
          var i :| 0 <= i < |front| && front[i] == k[j];
          assert s[i] == k[j];
        }
        AppendKeepsSorted(k, s[n - 1], key);
      }
    }
  }

  /** Putting an element after a sorted sequence whose keys are all at most
      its own keeps the sequence sorted. */
  lemma AppendKeepsSorted<T>(s: seq<T>, x: T, key: T -> string)
    requires SortedBy(s, key)
    requires forall j :: 0 <= j < |s| ==> LexLe(key(s[j]), key(x))
    ensures SortedBy(s + [x], key)
  {
    var r := s + [x];
    forall i, j | 0 <= i < j < |r|
      ensures LexLe(key(r[i]), key(r[j]))
    {
      assert r[i] == s[i];
      if j < |s| {
        assert r[j] == s[j];
      }
    }
  }

  /** `f` applied to every element of `s`, in order. */
  function MapSeq<A, B>(f: A -> B, s: seq<A>): (r: seq<B>)
    ensures |r| == |s|
    ensures forall i :: 0 <= i < |s| ==> r[i] == f(s[i])
    decreases |s|
  {
    if |s| == 0 then [] else [f(s[0])] + MapSeq(f, s[1..])
  }

  /** Mapping a concatenation maps each part. */
  lemma {:induction false} MapSeqAppend<A, B>(f: A -> B, a: seq<A>, b: seq<A>)
    ensures MapSeq(f, a + b) == MapSeq(f, a) + MapSeq(f, b)
    decreases |a|
  {
    if |a| == 0 {
      assert a + b == b;
    } else {
      assert (a + b)[1..] == a[1..] + b;
      MapSeqAppend(f, a[1..], b);
    }
  }
}

=== FILE: strings.dfy ===
/** The string primitives the harnesses rely on: substring search, removing
    and replacing one character, the last segment of a path, and the
    byte-wise (code point) ordering that Go's `<` and Python's `sorted` use. */
module Strings {

  /** True when `sub` occurs somewhere in `s`: Go's `strings.Contains(s, sub)`
      and Python's `sub in s`. */
  predicate Contains(s: string, sub: string)
    decreases |s|
  {
    sub <= s || (|s| > 0 && Contains(s[1..], sub))
  }

  /** `sub` occurs in `s` starting at index `i`. */
  ghost predicate OccursAt(s: string, sub: string, i: int) {
    0 <= i && i + |sub| <= |s| && s[i..i + |sub|] == sub
  }

  /** The scanning definition of `Contains` agrees with the positional one. */
  lemma {:induction false} ContainsIffOccurs(s: string, sub: string)
    ensures Contains(s, sub) <==> exists i :: OccursAt(s, sub, i)
    decreases |s|
  {
    if sub <= s {
      assert OccursAt(s, sub, 0);
    } else if |s| == 0 {
    } else {
      ContainsIffOccurs(s[1..], sub);
      if Contains(s[1..], sub) {
        var j :| OccursAt(s[1..], sub, j);
        assert s[1..][j..j + |sub|] == s[j + 1..j + 1 + |sub|];
        assert OccursAt(s, sub, j + 1);
      }
      if i :| OccursAt(s, sub, i) {
        if i > 0 {
          assert s[1..][i - 1..i - 1 + |sub|] == s[i..i + |sub|];
          assert OccursAt(s[1..], sub, i - 1);
        }
      }
    }
  }

  /** `s` with every occurrence of `c` deleted: Go's
      `strings.Replace(s, string(c), "", -1)`. */
  function RemoveChar(s: string, c: char): (r: string)
    ensures c !in r
    ensures forall x :: x != c ==> multiset(r)[x] == multiset(s)[x]
    ensures |r| + multiset(s)[c] == |s|
    ensures c !in s ==> r == s
  {
    if |s| == 0 then []
    else
      assert s == [s[0]] + s[1..];
      (if s[0] == c then [] else [s[0]]) + RemoveChar(s[1..], c)
  }

  /** Removing a character commutes with concatenation, so the characters
      that are kept stay in their original order. */
  lemma {:induction false} RemoveCharAppend(a: string, b: string, c: char)
    ensures RemoveChar(a + b, c) == RemoveChar(a, c) + RemoveChar(b, c)
    decreases |a|
  {
    if |a| == 0 {
      assert a + b == b;
    } else {
      var t := a[1..];
      assert a == [a[0]] + t && a + b == [a[0]] + (t + b);
      RemoveCharCons(a[0], t, c);
      RemoveCharCons(a[0], t + b, c);
      RemoveCharAppend(t, b, c);
      ConcatAssoc(if a[0] == c then [] else [a[0]], RemoveChar(t, c), RemoveChar(b, c));
    }
  }

  /** Concatenation is associative. */
  lemma ConcatAssoc<T>(x: seq<T>, y: seq<T>, z: seq<T>)
    ensures (x + y) + z == x + (y + z)
  {
  }

  /** Removing a character from a sequence with a known first element. */
  lemma RemoveCharCons(x: char, s: string, c: char)
    ensures RemoveChar([x] + s, c) == (if x == c then [] else [x]) + RemoveChar(s, c)
  {
    assert ([x] + s)[0] == x && ([x] + s)[1..] == s;
  }

  /** `s` with every `from` replaced by `to`: Go's
      `strings.Replace(s, string(from), string(to), -1)`. */
  function ReplaceChar(s: string, from: char, to: char): (r: string)
    ensures |r| == |s|
    ensures forall i :: 0 <= i < |s| ==> r[i] == (if s[i] == from then to else s[i])
  {
    if |s| == 0 then [] else [if s[0] == from then to else s[0]] + ReplaceChar(s[1..], from, to)
  }

  /** The text after the last `sep` of `s` (all of `s` when it has no `sep`):
      the last element of Go's `strings.Split(s, string(sep))`. It is the
      longest suffix of `s` that contains no `sep`. */
  function LastSegment(s: string, sep: char): (r: string)
    ensures sep !in r
    ensures |r| <= |s| && s[|s| - |r|..] == r
    ensures |r| == |s| || s[|s| - |r| - 1] == sep
    decreases |s|
  {
    if |s| == 0 then s
    else if s[|s| - 1] == sep then []
    else LastSegment(s[..|s| - 1], sep) + [s[|s| - 1]]
  }

  /** The last segment of a path is whatever follows its last separator. */
  lemma {:induction false} LastSegmentAfterSep(d: string, t: string, sep: char)
    requires sep !in t
    ensures LastSegment(d + [sep] + t, sep) == t
    decreases |t|
  {
    var s := d + [sep] + t;
    if |t| == 0 {
      assert s[|s| - 1] == sep;
    } else {
      var front := t[..|t| - 1];
      assert s[..|s| - 1] == d + [sep] + front;
      assert s[|s| - 1] == t[|t| - 1];
      LastSegmentAfterSep(d, front, sep);
      assert t == front + [t[|t| - 1]];
    }
  }

  /** Lexicographic order on code points, `a <= b` in Go and Python. For
      strings stored as UTF-8 it is also the byte-wise order Go compares by. */
  predicate LexLe(a: string, b: string)
    decreases |a|
  {
    if |a| == 0 then true
    else if |b| == 0 then false
    else if a[0] != b[0] then a[0] < b[0]
    else LexLe(a[1..], b[1..])
  }

  lemma {:induction false} LexLeReflexive(a: string)
    ensures LexLe(a, a)
    decreases |a|
  {
    if |a| > 0 {
      LexLeReflexive(a[1..]);
    }
  }

  lemma {:induction false} LexLeTotal(a: string, b: string)
    ensures LexLe(a, b) || LexLe(b, a)
    decreases |a|
  {
    if |a| > 0 && |b| > 0 && a[0] == b[0] {
      LexLeTotal(a[1..], b[1..]);
    }
  }

  lemma {:induction false} LexLeAntisymmetric(a: string, b: string)
    requires LexLe(a, b) && LexLe(b, a)
    ensures a == b
    decreases |a|
  {
    if |a| > 0 {
      LexLeAntisymmetric(a[1..], b[1..]);
      assert a == [a[0]] + a[1..];
      assert b == [b[0]] + b[1..];
    }
  }

  lemma {:induction false} LexLeTransitive(a: string, b: string, c: string)
    requires LexLe(a, b) && LexLe(b, c)
    ensures LexLe(a, c)
    decreases |a|
  {
    if |a| > 0 && a[0] == b[0] && b[0] == c[0] {
      LexLeTransitive(a[1..], b[1..], c[1..]);
    }
  }
}
